=== FILE: README.md ===
# CMIP5 catalogue filtering, in Dafny

A model of the table- and string-handling logic in `cmip5.py` (shclim/baspy). This is the
script that catalogues CMIP5 climate-model output and selects which NetCDF files to load.
The model covers:

- the catalogue filter `__filter_cat_by_dictionary`:
  - the per-key pass: every requested value must exist in the narrowed table;
  - the optional complete-variable-set pass, which drops whole path-head groups that lack
    one of the requested variables;
- the dictionary helpers `__combine_dictionaries` and `__compare_dict`;
- the NetCDF file selection inside `get_cubes`;
- the singleton check of `get_cube`;
- the experiment choice of `get_fx` / `get_orog` / `get_laf`;
- the path manipulation that builds a catalogue row;
- the file-name field extraction in `callback`.

The model is functional. The catalogue is a `Table` with a column set and a sequence of rows.
Each row is a `map<string, string>`. A filter dictionary is an ordered `seq<Constraint>`, and
a dictionary value is either a lone string or a list (`Values.Value`). The `ValueError`s
the code raises on purpose, the `KeyError` of a filter key that is not a column
(`cat[key]`, cmip5.py:115, modelled as `UnknownColumn`) and the `KeyError` of a missing
`Path` column become an `Err` of a `Result` that names the case. An `IndexError` from indexing a split path or file name,
and a row of the wrong width, become `None` of an `Option`.

Modules and files:

| file | module | source |
|---|---|---|
| results.dfy | Results | Option / Result |
| sequences.dfy | Sequences | sub-sequences, duplicate removal |
| text.dfy | Text | `str.split`/`join`, `startswith`, `endswith`, `in`, `os.path.split` |
| ordering.dfy | Ordering | Python string order, `sorted(set(..))` |
| values.dfy | Values | lone-string to list coercion |
| dicts.dfy | Dicts | `__combine_dictionaries`, `__compare_dict` |
| catalogue_filter.dfy | CatalogueFilter | per-key pass of the filter |
| complete_var_set.dfy | CompleteVarSet | the group-dropping pass |
| filter.dfy | Filter | the filter as a whole |
| loading.dfy | Loading | file selection, `callback` labels, `get_cube` |
| fixed_field.dfy | FixedField | `get_fx`, `get_orog`, `get_laf` |
| catalogue_builder.dfy | CatalogueBuilder | row building in `__refresh_shared_catalogue` |

Three behaviours of the code that a reader may not expect:

- **Where the complete-variable-set pass sits.** The file indents with tabs. Python 2 counts
  a tab as 8 columns, so the pass at cmip5.py:145-163 is part of the body of
  `for i in other_keys` (cmip5.py:140). As a result:
  - the pass runs once for each key other than `Var`;
  - it runs right after that key's single-value check;
  - it does not run at all when `Var` is the only key.

  `Filter.OtherKeysLoop` models exactly this. `Filter.OtherKeysLoopOutcome` proves that the
  repetitions collapse to one pass, because the pass is idempotent. With `Var` as the only
  key, groups lacking a requested variable are kept, although the comment at cmip5.py:127
  says they are removed. See Findings.
- **Re-filtering can raise.** Filtering a filtered table again with the same dictionary
  returns the same table when it succeeds. But it can raise UnknownValue
  (cmip5.py:117-120): a multi-valued key may name a value that later keys removed from the
  table. `Filter.FilterRefilter` proves this statement, and `Filter.RefilterCanFail` gives a
  concrete table on which the second call raises.
- **The caller's dictionary is changed.** The filter does not change the table it is given.
  It does replace each lone string in the caller's dictionary with a one-element list
  (cmip5.py:110-111), for every key the per-key pass reaches. `Filter.FilterCatalogue`
  returns that dictionary as `specAfter`.

## Model

| member | source | states |
|---|---|---|
| Text.Split | cmip5.py:41-50 | `re.split` on one character: at least one piece, and no piece contains the separator (with `Text.JoinSplit`, the pieces joined give the string back) |
| Text.JoinSplit | cmip5.py:48-50 | joining the '/'-pieces of a path with '/' gives the path back |
| Text.SplitJoin | cmip5.py:41-52 | splitting a join of separator-free pieces gives back exactly those pieces |
| Text.PathHead | cmip5.py:147 | the head of `os.path.split` is a prefix of the path, and is empty when the path has no '/' |
| Text.PathHeadOfJoin | cmip5.py:144-148 | for a path of directory pieces plus a last component, the head is the directory part |
| Ordering.SortedSet | cmip5.py:190-195 | `sorted(set(xs))` is strictly increasing and holds exactly the elements of `xs` |
| Ordering.SortedSetEqualIff | cmip5.py:188-197 | two lists have equal `sorted(set(..))` exactly when they hold the same elements, whatever their order or duplicates |
| Dicts.CombineKey | cmip5.py:80-96 | after one key's step, that key holds the duplicate-free union of both lists, or is deleted when the union is empty; every other key is untouched |
| Dicts.Combine | cmip5.py:69-98 | each listed key holds the duplicate-free union of both dictionaries' values (a missing key counts as empty) and is absent exactly when that union is empty; an unlisted key keeps dict1's entry, and nothing else comes from dict2 |
| Dicts.Compare | cmip5.py:171-199 | the result is 'same' exactly when every key has equal value sets in both dictionaries, with a missing key counting as empty |
| Dicts.CompareReflexiveSymmetric | cmip5.py:171-199 | comparing a dictionary with itself gives 'same', and swapping the arguments does not change the result |
| Values.Coerce | cmip5.py:110-111 | a lone string becomes the one-element list holding it, and a list is left as it is |
| CatalogueFilter.Keep | cmip5.py:113-124 | one key's narrowing keeps, in order, exactly the rows whose cell is one of the requested values, each as many times as it occurs in the table |
| CatalogueFilter.FirstAbsent | cmip5.py:117-120 | finds a requested value missing from the column's distinct values exactly when one exists, and it is the first such value in request order |
| CatalogueFilter.SelectFrom | cmip5.py:107-124 | on success every key is a column and all keys were visited; an error is raised at the last key visited, every key before it being a column, and names either that key as missing from the columns or one of that key's requested values |
| CatalogueFilter.SelectErrorAt | cmip5.py:113-120 | a failing pass stops at the first failing key: every key before it is a column and finds all its values, and an UnknownValue error names the first of that key's requested values absent from its column in the table narrowed by the keys before it |
| CatalogueFilter.SelectIsMatching | cmip5.py:107-124 | a successful per-key pass returns exactly the rows meeting every constraint (OR within a key, AND across keys), in table order |
| CatalogueFilter.MatchingCons | cmip5.py:107-124 | narrowing by the first key and then by the rest equals narrowing by all keys at once |
| CatalogueFilter.SelectFailsIff | cmip5.py:113-120 | when every key is a column, the pass fails exactly when some requested value is absent from its column in the table narrowed by the preceding keys, and the error is then UnknownValue |
| CatalogueFilter.CoercePrefix | cmip5.py:109-111 | the caller's dictionary afterwards keeps its keys and values; each reached entry holds a list, and the rest are unchanged |
| CompleteVarSet.DropGroups | cmip5.py:158-160 | dropping groups keeps, in order, exactly the rows whose path head is not dropped, each as many times as it occurs |
| CompleteVarSet.PassFrom | cmip5.py:151-160 | the pass returns a sub-sequence of its input |
| CompleteVarSet.CompletePass | cmip5.py:145-163 | the pass returns a sub-sequence of its input in which every requested variable is present in exactly the same groups |
| CompleteVarSet.GroupsAfterDrop | cmip5.py:151-160 | after dropping groups D, the groups offering a variable are the earlier ones minus D |
| CompleteVarSet.PassWholeGroups | cmip5.py:158-160 | rows leave only as whole groups: two rows with the same path head are both kept or both dropped |
| CompleteVarSet.PassBalances | cmip5.py:151-160 | after the pass, every requested variable is present in exactly the same groups |
| CompleteVarSet.CompletePassComplete | cmip5.py:145-163 | after the pass, every surviving group offers every requested variable |
| CompleteVarSet.PassKeepsCompleteGroups | cmip5.py:151-160 | a group that already offered every requested variable is never dropped |
| CompleteVarSet.CompletePassIdempotent | cmip5.py:145-163 | running the pass a second time changes nothing |
| Filter.VarIndex | cmip5.py:130-136 | finds the `Var` entry exactly when the dictionary has one |
| Filter.OtherKeys | cmip5.py:138-139 | `other_keys` holds exactly the entries other than `Var`, as a sub-sequence of the dictionary in its order |
| Filter.OtherKeysLoop | cmip5.py:138-163 | on success the rows are a sub-sequence of the input and still carry every column |
| Filter.OtherKeysLoopOutcome | cmip5.py:140-163 | with a `Path` column, the loop fails exactly when some other key holds several values, and the error names the first such key; on success it equals one pass when there are other keys and no pass when there are none |
| Filter.OtherKeysLoopError | cmip5.py:140-142 | with a `Path` column, a failing loop names the first other key, from the current one on, that holds several values |
| Filter.OtherKeysLoopWithoutPath | cmip5.py:140-148 | without a `Path` column the loop raises on its first single-valued key, and returns the rows unchanged when `Var` is the only key |
| Filter.CompleteSetStage | cmip5.py:128-163 | a successful complete-set stage returns a sub-sequence of the per-key result |
| Filter.FilterResult | cmip5.py:102-166 | a filtered table has the same columns and is a sub-sequence of the input whose rows all meet every constraint; without a complete set it is exactly the matching rows and it succeeds exactly when the per-key pass does; a per-key error is raised unchanged |
| Filter.CompleteSetResult | cmip5.py:128-163 | the complete-set result has the same columns and is a sub-sequence of the input whose rows meet every constraint |
| Filter.FilterCatalogue | cmip5.py:102-166 | the result is that of the filter; the caller's dictionary keeps its keys and values, the entries the per-key pass reached hold lists and the later ones are unchanged; after a successful call every entry holds a list |
| Filter.CompleteVarSetOutcome | cmip5.py:128-142 | no `Var` key, or fewer than two variables, raises InvalidQuery; with a `Path` column the request fails exactly when some other key holds several values |
| Filter.CompleteVarSetResult | cmip5.py:128-163 | a successful request passed its checks, and returns the matching rows after one pass when other keys exist and unchanged when `Var` is the only key |
| Filter.CompleteVarSetGroups | cmip5.py:145-163 | whole groups are kept or dropped, complete groups are kept, and with another key every surviving group offers every requested variable |
| Filter.FilterRefilter | cmip5.py:102-166 | filtering a result again with the same dictionary gives the same table, or raises UnknownValue |
| Filter.RefilterCanFail | cmip5.py:113-124 | a table and dictionary whose filtered result makes the second call raise |
| Filter.CompleteSetStageIntended | cmip5.py:127-163 | the corrected stage returns a sub-sequence of the per-key result |
| Filter.IntendedStageComplete | cmip5.py:127-163 | with the correction, every surviving group offers every requested variable, whichever keys were given |
| Filter.VarOnlyKeepsIncompleteGroup | cmip5.py:138-163 | with `Var` as the only key, the code as written keeps a group lacking 'pr', and the corrected stage drops it |
| Loading.DropHidden | cmip5.py:289-293 | keeps exactly the names that do not start with '.', as a sub-sequence of the listing in its order |
| Loading.Marked | cmip5.py:299-308 | marks exactly the names that lack the run id or end in '.nc4' |
| Loading.RemoveEach | cmip5.py:310-312 | removing each marked name by value, when present, takes away one occurrence per marked name: the result's multiset is the listing's minus the marked ones |
| Loading.SelectNetcdfs | cmip5.py:287-312 | a name is loaded exactly when it is in the listing, is not hidden, contains the run id and does not end in '.nc4' |
| Loading.RemoveFirstMarked | cmip5.py:310-312 | removing the first marked name by value deletes that occurrence and leaves the unmarked names as they were |
| Loading.SelectNetcdfsIsWanted | cmip5.py:287-312 | the files loaded are exactly the names that are not hidden, contain the run id and do not end in '.nc4', in listing order |
| Loading.SelectNetcdfsIdempotent | cmip5.py:287-312 | selecting again from the selected names changes nothing |
| Loading.FilenameLabels | cmip5.py:227-242 | labels exist exactly when the path handed to the callback has at least five '_'-separated fields |
| Loading.FilenameLabelsOfFields | cmip5.py:227-242 | the labels of `var_table_model_experiment_run_...` are its model, experiment and run fields |
| Loading.PathLabels | cmip5.py:227-242 | for a directory without '_', the labels of `directory/var_table_model_experiment_run_...` are the file name's model, experiment and run fields |
| Loading.GetCube | cmip5.py:396-407 | succeeds exactly on a one-row table and returns that row; zero rows and several rows give their own errors |
| FixedField.FirstPresent | cmip5.py:424-431 | finds the earliest whitelisted experiment that is present, and no earlier entry is present |
| FixedField.GetFx | cmip5.py:413-435 | HadGEM2-AO is looked up as HadGEM2-CC; no experiments is an error; otherwise the result is the first of historical, piControl, amip, rcp45, decadal1980 that is present; the call succeeds exactly when some experiment is listed and one of the whitelist is present |
| FixedField.GetOrog | cmip5.py:437-442 | the orography query asks for 'orog' of the aliased model at frequency 'fx', from the first whitelisted experiment available, with the errors of `get_fx` |
| FixedField.GetLaf | cmip5.py:445-446 | the land-fraction query asks for 'sftlf' of the aliased model at frequency 'fx', from the first whitelisted experiment available, with the errors of `get_fx` |
| FixedField.FxOutcomeUnique | cmip5.py:413-435 | the promised outcome of `get_fx` (which error when, and which query otherwise) allows only one result |
| CatalogueBuilder.BuildFields | cmip5.py:41-52 | a row exists exactly when the paths have enough pieces. The fields are the pieces after the sixth '/' without 'latest', then the resolved version, then the path with 'latest' replaced by that version |
| CatalogueBuilder.BuildFieldsOfLayout | cmip5.py:27-52 | a directory of the fixed layout fills the ten columns in order, and its path head is the version directory |
| CatalogueBuilder.ToRow | cmip5.py:55 | a row exists exactly for ten fields, and it maps each column name to its field |
| CatalogueBuilder.BuildRow | cmip5.py:41-55 | a directory's row exists exactly when its path gives ten fields; it has exactly the ten catalogue columns, each holding its field in order |
| CatalogueBuilder.BuildCatalogue | cmip5.py:38-55 | the catalogue exists exactly when every leaf directory yields a row; it has the ten columns, and its i-th row is the row of the i-th directory, with a cell for every column |

## Findings

| source | as written | input that shows it | evidently intended | confidence | as-written member | corrected member |
|---|---|---|---|---|---|---|
| cmip5.py:138-163 | The group-dropping pass is in the body of `for i in other_keys`, so it never runs when `Var` is the only key. | `Var=['tas','pr']` with `complete_var_set=True`, on a table with a row `a/tas` (Var tas) and a row `b/pr` (Var pr): both rows are returned, although neither group has both variables. | Run the pass once after the checks, whichever keys are given, as the comment at cmip5.py:127 says. | medium (depends on Python 2 tab expansion); not executed | Filter.VarOnlyKeepsIncompleteGroup | Filter.IntendedStageComplete |

`Filter.FilterResult` and `Filter.FilterCatalogue` keep the behaviour as written.
`Filter.CompleteSetStageIntended` is the corrected stage.

## Left out

- Filesystem access is not modelled: directory globbing, `os.path.isdir`, `os.path.realpath`,
  `os.listdir`, the CSV write and the copy to the shared location (cmip5.py:27-35, 45, 58-64,
  287). The resolved path and the directory listing are parameters instead.
- Everything done through `iris` and `cf_units` is a foreign library and is not modelled:
  - loading with constraints, the `ValueError('more than one cube loaded, expected only one!')` check (cmip5.py:328) and auxiliary coordinates;
  - year, month and season categorisation (cmip5.py:229-255, 314-341);
  - interpolation, including its reference to the undefined name `nearest_lat_lon`
    (cmip5.py:333);
  - clearing attributes;
  - the EC-EARTH calendar fixes (cmip5.py:343-373);
  - time-unit unification;
  - removing overlaps and reconciling grid coordinates (in `baspy.util`, which is not part
    of this model);
  - `concatenate_cube` (cmip5.py:375-390).
- `catalogue()` and the catalogue-file setup delegate to `baspy._catalogue`, which is not part
  of this model (cmip5.py:16, 203-206). `get_template_cube` only calls library code.
  `FixedField.GetFx` therefore takes the catalogue lookup `(model, var) -> experiments` as a
  parameter. It returns the query whose first cube is loaded, not the cube.
- Progress messages, warnings and the "more than one file, using first" notice are printing
  only.
- Python 2 dictionary order is not modelled: the filter dictionary is an explicit ordered
  sequence of distinct keys.
- Dicts.Combine: the order of each merged list is the model's choice (first occurrence kept).
  Python's `list(set(..))` order is unspecified, so the contract states only the element set
  and the absence of duplicates.
- Dicts.Compare: `__compare_dict` coerces only exact `str` values (cmip5.py:185-186), not
  `np.string_` or `unicode`. Such a string there would be split into its characters. The
  model has one lone-string kind, so it treats every lone string as one value.
- Values.Coerce: the code wraps only an exact `str` or `np.string_` (cmip5.py:85-88,
  110-111). A Python 2 `unicode` lone string is not wrapped. The model treats every lone
  string as one value and does not model that string class.
- Filter.FilterCatalogue: with a `unicode` lone string, such as `u'tas'`, the per-key pass
  iterates its characters, and raises for 't' unless 't' is a value of that column. This is
  not modelled, for the reason given under Values.Coerce.
- Dicts.Combine: with a `unicode` lone string, the list concatenation at cmip5.py:93 raises
  TypeError. This is not modelled, for the reason given under Values.Coerce.
- Catalogue cells are modelled as strings. pandas may parse numeric-looking CSV cells as
  numbers, or empty ones as NaN. That is not modelled.

=== FILE: catalogue_builder.dfy ===
/** The row-building step of `__refresh_shared_catalogue`
    (cmip5.py:38-55). The directory walk and `os.path.realpath` are not
    modelled: each leaf directory arrives with its resolved path. */
module CatalogueBuilder {
  import opened Results
  import opened Sequences
  import opened Text
  import opened CatalogueFilter

  /** Column names of the catalogue file. */
  const Header: seq<string> :=
    ["Centre", "Model", "Experiment", "Frequency", "SubModel", "CMOR", "RunID", "Var", "Version", "Path"]

  /** Lines 41-52: the path pieces after the sixth '/' without the eighth of
      them (the 'latest' link), then the version (second-to-last piece of the
      resolved path) and the path with its second-to-last piece replaced by
      that version. None where Python raises an IndexError. */
  function BuildFields(dir: string, realPath: string): (r: Option<seq<string>>)
    ensures var segs := Split(dir, '/');
      var resolved := Split(realPath, '/');
      && (r.Some? <==> |segs| >= 14 && |resolved| >= 2)
      && (r.Some? ==> |r.value| == |segs| - 5)
      && (r.Some? ==> r.value[..7] == segs[6..13] && r.value[7..|segs| - 7] == segs[14..])
      && (r.Some? ==> r.value[|segs| - 7] == resolved[|resolved| - 2])
      && (r.Some? ==> Split(r.value[|segs| - 6], '/') == segs[|segs| - 2 := resolved[|resolved| - 2]])
  {
    var segs := Split(dir, '/');
    var resolved := Split(realPath, '/');
    if |segs| < 14 || |resolved| < 2 then None
    else
      var parts := segs[6..];
      var kept := parts[..7] + parts[8..];
      var version := resolved[|resolved| - 2];
      var a := segs[|segs| - 2 := version];
      assert SeparatorFree(a, '/');
      SplitJoin(a, '/');
      Some(kept + [version, Join(a, '/')])
  }

  /** A directory of the fixed layout
      `/badc/cmip5/data/cmip5/output1/centre/model/experiment/frequency/submodel/cmor/run/latest/var`
      gives a row that fills the ten columns in order, and the row's path is
      the same directory with 'latest' replaced by the version, so its
      `Path` head (the group of the complete-variable-set pass) is the
      version directory. */
  lemma BuildFieldsOfLayout(segs: seq<string>, realPath: string)
    requires |segs| == 15
    requires SeparatorFree(segs, '/')
    requires |Split(realPath, '/')| >= 2
    requires |Split(realPath, '/')[|Split(realPath, '/')| - 2]| > 0
    ensures var version := Split(realPath, '/')[|Split(realPath, '/')| - 2];
      var r := BuildFields(Join(segs, '/'), realPath);
      && r.Some? && |r.value| == |Header|
      && r.value[..7] == segs[6..13] && r.value[7] == segs[14] && r.value[8] == version
      && r.value[9] == Join(segs[13 := version], '/')
      && PathHead(r.value[9]) == Join(segs[..13] + [version], '/')
  {
    SplitJoin(segs, '/');
    var version := Split(realPath, '/')[|Split(realPath, '/')| - 2];
    var a := segs[13 := version];
    assert a == (segs[..13] + [version]) + [segs[14]];
    assert SeparatorFree(segs[..13] + [version], '/');
    PathHeadOfJoin(segs[..13] + [version], segs[14]);
  }

  /** The position of `name` in `names`, or |names| when it is absent. */
  function IndexOf(names: seq<string>, name: string): (i: nat)
    ensures i <= |names|
    ensures i < |names| <==> name in names
    ensures i < |names| ==> names[i] == name && forall j :: 0 <= j < i ==> names[j] != name
    decreases |names|
  {
    if |names| == 0 then 0
    else if names[0] == name then 0
    else 1 + IndexOf(names[1..], name)
  }

  lemma HeaderDistinct()
    ensures NoDup(Header)
  {
  }

  /** One catalogue row from its fields; None when the count is not ten.
      The leaf directories come from a fixed-depth glob (lines 28 and 33), so
      every path has the same number of pieces and every row has ten
      fields; the other counts do not arise. */
  function ToRow(fields: seq<string>): (r: Option<Row>)
    ensures r.Some? <==> |fields| == |Header|
    ensures r.Some? ==> r.value.Keys == Elems(Header)
    ensures r.Some? ==> forall i :: 0 <= i < |Header| ==> r.value[Header[i]] == fields[i]
  {
    if |fields| != |Header| then None
    else
      HeaderDistinct();
      assert forall i :: 0 <= i < |Header| ==> IndexOf(Header, Header[i]) == i;
      Some(map k | k in Elems(Header) :: fields[IndexOf(Header, k)])
  }

  /** Lines 41-53: the row of one leaf directory, given its resolved path. */
  function BuildRow(dir: string, realPath: string): (r: Option<Row>)
    ensures var f := BuildFields(dir, realPath);
      r.Some? <==> f.Some? && |f.value| == |Header|
    ensures r.Some? ==> r.value.Keys == Elems(Header)
    ensures r.Some? ==> forall i :: 0 <= i < |Header| ==> r.value[Header[i]] == BuildFields(dir, realPath).value[i]
  {
    match BuildFields(dir, realPath)
    case None => None
    case Some(fields) => ToRow(fields)
  }

  /** Lines 38-55: the catalogue built from the leaf directories (each with
      its resolved path), one row per directory in order; None when any row
      cannot be built. */
  function BuildCatalogue(leaves: seq<(string, string)>): (r: Option<Table>)
    ensures r.Some? <==> forall i :: 0 <= i < |leaves| ==> BuildRow(leaves[i].0, leaves[i].1).Some?
    ensures r.Some? ==> r.value.columns == Elems(Header) && Valid(r.value) && |r.value.rows| == |leaves|
    ensures r.Some? ==> forall i :: 0 <= i < |leaves| ==> r.value.rows[i] == BuildRow(leaves[i].0, leaves[i].1).value
  {
    var opts := seq(|leaves|, i requires 0 <= i < |leaves| => BuildRow(leaves[i].0, leaves[i].1));
    assert forall i :: 0 <= i < |opts| ==> opts[i] == BuildRow(leaves[i].0, leaves[i].1);
    CollectRows(Elems(Header), opts)
  }

  /** The table of the given rows when every one of them was built. */
  function CollectRows(columns: set<string>, opts: seq<Option<Row>>): (r: Option<Table>)
    requires forall i :: 0 <= i < |opts| && opts[i].Some? ==> columns <= opts[i].value.Keys
    ensures r.Some? <==> forall i :: 0 <= i < |opts| ==> opts[i].Some?
    ensures r.Some? ==> r.value.columns == columns && Valid(r.value) && |r.value.rows| == |opts|
    ensures r.Some? ==> forall i :: 0 <= i < |opts| ==> r.value.rows[i] == opts[i].value
    decreases |opts|
  {
    if |opts| == 0 then Some(Table(columns, []))
    else if opts[0].None? then None
    else
      var rest := CollectRows(columns, opts[1..]);
      assert forall i :: 1 <= i < |opts| ==> opts[i] == opts[1..][i - 1];
      if rest.None? then None
      else Some(Prepend(opts[0].value, rest.value))
  }

  /** A table with one more row in front. */
  function Prepend(row: Row, t: Table): (r: Table)
    requires Valid(t) && t.columns <= row.Keys
    ensures r.columns == t.columns && Valid(r)
    ensures r.rows == [row] + t.rows
  {
    var rows := [row] + t.rows;
    assert forall x :: x in rows ==> x == row || x in t.rows;
    Table(t.columns, rows)
  }
}

=== FILE: catalogue_filter.dfy ===
/** The catalogue table and the per-key pass of `__filter_cat_by_dictionary`
    (cmip5.py:102-124): for each key in turn, every requested value must be
    among the column's distinct values in the table narrowed so far, then
    only the rows whose value is one of the requested ones are kept. */
module CatalogueFilter {
  import opened Results
  import opened Sequences
  import opened Values

  /** One catalogue row: column name to cell text. */
  type Row = map<string, string>

  /** A table: its column names and its rows, in order. */
  datatype Table = Table(columns: set<string>, rows: seq<Row>)

  /** Every row has a cell for every column, as in a data frame. */
  predicate Valid(t: Table)
  {
    forall r :: r in t.rows ==> t.columns <= r.Keys
  }

  /** One `key=value(s)` entry of the filter dictionary. */
  datatype Constraint = Constraint(key: string, value: Value)

  /** The filter dictionary in the order its keys are visited. */
  type Spec = seq<Constraint>

  /** A dictionary has each key once. */
  predicate DistinctKeys(spec: Spec)
  {
    forall i, j :: 0 <= i < j < |spec| ==> spec[i].key != spec[j].key
  }

  /** Why a complete-variable-set request is malformed. */
  datatype Reason = VarNotGiven | TooFewVars | SeveralValues(key: string)

  /** The exceptions the filter raises: a missing column (a KeyError), a
      requested value that is not in the table, a malformed request. */
  datatype FilterError =
    | UnknownColumn(column: string)
    | UnknownValue(column: string, value: string)
    | InvalidQuery(reason: Reason)

  /** The row's cell under `key` is one of `vals`. */
  predicate Accepts(row: Row, key: string, vals: seq<string>)
  {
    key in row && row[key] in vals
  }

  /** The row satisfies every constraint of `spec`. */
  predicate MatchesAll(row: Row, spec: Spec)
  {
    forall i :: 0 <= i < |spec| ==> Accepts(row, spec[i].key, AsList(spec[i].value))
  }

  /** `cat[cat_bool]` for one key: the rows accepted by that key, in order. */
  function Keep(rows: seq<Row>, key: string, vals: seq<string>): (r: seq<Row>)
    ensures Subseq(r, rows)
    ensures forall x :: x in r <==> x in rows && Accepts(x, key, vals)
    ensures forall x {:trigger multiset(r)[x]} :: multiset(r)[x] == if Accepts(x, key, vals) then multiset(rows)[x] else 0
    decreases |rows|
  {
    if |rows| == 0 then []
    else
      var rest := Keep(rows[1..], key, vals);
      assert rows == [rows[0]] + rows[1..];
      assert forall x :: x in rows <==> x == rows[0] || x in rows[1..];
      if Accepts(rows[0], key, vals) then [rows[0]] + rest else rest
  }

  /** Reference definition: the rows meeting every constraint, in table order. */
  function Matching(rows: seq<Row>, spec: Spec): (r: seq<Row>)
    ensures Subseq(r, rows)
    ensures forall x :: x in r <==> x in rows && MatchesAll(x, spec)
    decreases |rows|
  {
    if |rows| == 0 then []
    else
      var rest := Matching(rows[1..], spec);
      assert forall x :: x in rows <==> x == rows[0] || x in rows[1..];
      if MatchesAll(rows[0], spec) then [rows[0]] + rest else rest
  }

  /** `np.unique(cat[key])`: the distinct values of a column. */
  function ColumnValues(rows: seq<Row>, key: string): set<string>
  {
    set r | r in rows && key in r :: r[key]
  }

  /** The `k`-th requested value is not present, and every value before it is. */
  predicate FirstOutside(vals: seq<string>, present: set<string>, k: int)
  {
    && 0 <= k < |vals| && vals[k] !in present
    && forall j :: 0 <= j < k ==> vals[j] in present
  }

  /** The first requested value that is not present, if any. */
  function FirstAbsent(vals: seq<string>, present: set<string>): (r: Option<string>)
    ensures r.None? <==> forall v :: v in vals ==> v in present
    ensures r.Some? ==> r.value in vals && r.value !in present
    ensures r.Some? ==> exists k :: FirstOutside(vals, present, k) && vals[k] == r.value
    decreases |vals|
  {
    if |vals| == 0 then None
    else if vals[0] !in present then
      assert FirstOutside(vals, present, 0);
      Some(vals[0])
    else
      assert forall v :: v in vals <==> v == vals[0] || v in vals[1..];
      var r := FirstAbsent(vals[1..], present);
      if r.Some? then
        var k :| FirstOutside(vals[1..], present, k) && vals[1..][k] == r.value;
        assert FirstOutside(vals, present, k + 1);
        r
      else r
  }

  /** The outcome of the per-key pass, and how many keys of the caller's
      dictionary it reached (each reached key has been coerced to a list). */
  datatype Selection = Selection(outcome: Result<seq<Row>, FilterError>, visited: nat)

  /** The per-key pass from the `i`-th key on. */
  function SelectFrom(columns: set<string>, rows: seq<Row>, spec: Spec, i: nat): (s: Selection)
    requires i <= |spec|
    ensures i <= s.visited <= |spec|
    ensures s.outcome.Ok? ==> s.visited == |spec|
    ensures s.outcome.Ok? ==> forall j :: i <= j < |spec| ==> spec[j].key in columns
    ensures s.outcome.Err? ==> s.visited > i
    ensures s.outcome.Err? ==> forall j :: i <= j && j + 1 < s.visited ==> spec[j].key in columns
    ensures s.outcome.Err? && s.outcome.error.UnknownColumn? ==>
              s.outcome.error.column == spec[s.visited - 1].key && s.outcome.error.column !in columns
    ensures s.outcome.Err? && s.outcome.error.UnknownValue? ==>
              s.outcome.error.column == spec[s.visited - 1].key
              && s.outcome.error.value in AsList(spec[s.visited - 1].value)
    ensures s.outcome.Err? ==> s.outcome.error.UnknownColumn? || s.outcome.error.UnknownValue?
    decreases |spec| - i
  {
    if i == |spec| then Selection(Ok(rows), |spec|)
    else
      var c := spec[i];
      var vals := AsList(c.value);
      if c.key !in columns then Selection(Err(UnknownColumn(c.key)), i + 1)
      else
        match FirstAbsent(vals, ColumnValues(rows, c.key))
        case Some(v) => Selection(Err(UnknownValue(c.key, v)), i + 1)
        case None =>
          var rest := SelectFrom(columns, Keep(rows, c.key, vals), spec, i + 1);
          assert rest.visited > i + 1 || rest.outcome.Ok?;
          rest
  }

  /** Narrowing by the first key, then by the rest, is narrowing by all keys. */
  lemma {:induction false} MatchingCons(rows: seq<Row>, spec: Spec)
    requires |spec| >= 1
    ensures Matching(rows, spec) == Matching(Keep(rows, spec[0].key, AsList(spec[0].value)), spec[1..])
    decreases |rows|
  {
    if |rows| > 0 {
      MatchingCons(rows[1..], spec);
      var c := spec[0];
      assert MatchesAll(rows[0], spec) <==>
             Accepts(rows[0], c.key, AsList(c.value)) && MatchesAll(rows[0], spec[1..]) by {
        if Accepts(rows[0], c.key, AsList(c.value)) && MatchesAll(rows[0], spec[1..]) {
          forall i | 0 <= i < |spec|
            ensures Accepts(rows[0], spec[i].key, AsList(spec[i].value))
          {
            if i > 0 {
              assert spec[i] == spec[1..][i - 1];
            }
          }
        }
      }
    }
  }

  lemma {:induction false} MatchingNothing(rows: seq<Row>)
    ensures Matching(rows, []) == rows
    decreases |rows|
  {
    if |rows| > 0 {
      MatchingNothing(rows[1..]);
    }
  }

  /** When the per-key pass succeeds its result is exactly the rows meeting
      every constraint, in table order: nothing that matches is lost. */
  lemma {:induction false} SelectIsMatching(columns: set<string>, rows: seq<Row>, spec: Spec, i: nat)
    requires i <= |spec|
    requires SelectFrom(columns, rows, spec, i).outcome.Ok?
    ensures SelectFrom(columns, rows, spec, i).outcome.value == Matching(rows, spec[i..])
    decreases |spec| - i
  {
    if i == |spec| {
      MatchingNothing(rows);
    } else {
      var c := spec[i];
      var kept := Keep(rows, c.key, AsList(c.value));
      SelectIsMatching(columns, kept, spec, i + 1);
      MatchingCons(rows, spec[i..]);
      assert spec[i..][1..] == spec[i + 1..];
    }
  }

  /** A requested value is missing from the `j`-th column of the table as
      narrowed by the keys before `j` (counting from key `i`). */
  predicate AbsentAt(rows: seq<Row>, spec: Spec, i: int, j: int, v: string)
  {
    && 0 <= i <= j < |spec|
    && v in AsList(spec[j].value)
    && v !in ColumnValues(Matching(rows, spec[i..j]), spec[j].key)
  }

  /** With every key a column of the table, the per-key pass fails exactly
      when some requested value is absent from its column in the table as
      narrowed by the preceding keys; the failure is then an UnknownValue. */
  lemma {:induction false} SelectFailsIff(columns: set<string>, rows: seq<Row>, spec: Spec, i: nat)
    requires i <= |spec|
    requires forall j :: 0 <= j < |spec| ==> spec[j].key in columns
    ensures SelectFrom(columns, rows, spec, i).outcome.Err? <==>
              exists j, v :: i <= j < |spec| && AbsentAt(rows, spec, i, j, v)
    ensures SelectFrom(columns, rows, spec, i).outcome.Err? ==>
              SelectFrom(columns, rows, spec, i).outcome.error.UnknownValue?
    decreases |spec| - i, 1
  {
    if i < |spec| {
      var c := spec[i];
      var vals := AsList(c.value);
      match FirstAbsent(vals, ColumnValues(rows, c.key))
      case Some(v) =>
        MatchingNothing(rows);
        assert spec[i..i] == [];
        assert SelectFrom(columns, rows, spec, i).outcome == Err(UnknownValue(c.key, v));
        assert AbsentAt(rows, spec, i, i, v);
      case None =>
        SelectFailsLater(columns, rows, spec, i);
    }
  }

  /** The case of `SelectFailsIff` where the `i`-th key finds all its values. */
  lemma {:induction false} SelectFailsLater(columns: set<string>, rows: seq<Row>, spec: Spec, i: nat)
    requires i < |spec|
    requires forall j :: 0 <= j < |spec| ==> spec[j].key in columns
    requires FirstAbsent(AsList(spec[i].value), ColumnValues(rows, spec[i].key)).None?
    ensures SelectFrom(columns, rows, spec, i).outcome.Err? <==>
              exists j, v :: i <= j < |spec| && AbsentAt(rows, spec, i, j, v)
    ensures SelectFrom(columns, rows, spec, i).outcome.Err? ==>
              SelectFrom(columns, rows, spec, i).outcome.error.UnknownValue?
    decreases |spec| - i, 0
  {
    var kept := Keep(rows, spec[i].key, AsList(spec[i].value));
    SelectStep(columns, rows, spec, i);
    SelectFailsIff(columns, kept, spec, i + 1);
    NoneAbsentFirst(rows, spec, i);
    if SelectFrom(columns, rows, spec, i).outcome.Err? {
      var j, v :| i + 1 <= j < |spec| && AbsentAt(kept, spec, i + 1, j, v);
      AbsentShift(rows, spec, i, j, v);
    } else {
      forall j, v | i < j < |spec| ensures !AbsentAt(rows, spec, i, j, v) {
        AbsentShift(rows, spec, i, j, v);
      }
    }
  }

  /** A key that is a column and finds all its values narrows the table and
      hands it to the next key. */
  lemma SelectStep(columns: set<string>, rows: seq<Row>, spec: Spec, i: nat)
    requires i < |spec| && spec[i].key in columns
    requires FirstAbsent(AsList(spec[i].value), ColumnValues(rows, spec[i].key)).None?
    ensures SelectFrom(columns, rows, spec, i) ==
              SelectFrom(columns, Keep(rows, spec[i].key, AsList(spec[i].value)), spec, i + 1)
  {
  }

  /** When the `i`-th key finds all its values, none is absent at that key. */
  lemma NoneAbsentFirst(rows: seq<Row>, spec: Spec, i: nat)
    requires i < |spec|
    requires FirstAbsent(AsList(spec[i].value), ColumnValues(rows, spec[i].key)).None?
    ensures forall v :: !AbsentAt(rows, spec, i, i, v)
  {
    MatchingNothing(rows);
    assert spec[i..i] == [];
  }

  /** Absence at a later key, counted from key `i`, is absence counted from
      key `i + 1` in the table narrowed by key `i`. */
  lemma AbsentShift(rows: seq<Row>, spec: Spec, i: nat, j: nat, v: string)
    requires i < j < |spec|
    ensures AbsentAt(rows, spec, i, j, v) <==>
              AbsentAt(Keep(rows, spec[i].key, AsList(spec[i].value)), spec, i + 1, j, v)
  {
    MatchingCons(rows, spec[i..j]);
    assert spec[i..j][1..] == spec[i + 1..j];
  }

  /** The pass from key `i` on, reaching key `k` with the table narrowed by
      the keys before it, raises UnknownValue for `v`: the first of the
      `k`-th key's requested values missing from that column. */
  predicate NamedAt(rows: seq<Row>, spec: Spec, i: int, k: int, v: string)
  {
    && 0 <= i <= k < |spec|
    && FirstAbsent(AsList(spec[k].value), ColumnValues(Matching(rows, spec[i..k]), spec[k].key)) == Some(v)
  }

  /** `NamedAt` at key `i` itself is about the table as given. */
  lemma NamedFirst(rows: seq<Row>, spec: Spec, i: nat, v: string)
    requires i < |spec|
    requires FirstAbsent(AsList(spec[i].value), ColumnValues(rows, spec[i].key)) == Some(v)
    ensures NamedAt(rows, spec, i, i, v)
  {
    MatchingNothing(rows);
    assert spec[i..i] == [];
  }

  /** `NamedAt` at a later key, counted from key `i`, holds counted from key
      `i + 1` in the table narrowed by key `i`. */
  lemma NamedBack(rows: seq<Row>, kept: seq<Row>, spec: Spec, i: nat, k: nat, v: string)
    requires i < k < |spec|
    requires kept == Keep(rows, spec[i].key, AsList(spec[i].value))
    requires NamedAt(kept, spec, i + 1, k, v)
    ensures NamedAt(rows, spec, i, k, v)
  {
    MatchingCons(rows, spec[i..k]);
    assert spec[i..k][1..] == spec[i + 1..k];
  }

  /** `NamedAt` names a requested value that is absent at that key. */
  lemma NamedIsAbsent(rows: seq<Row>, spec: Spec, i: int, k: int, v: string)
    requires NamedAt(rows, spec, i, k, v)
    ensures AbsentAt(rows, spec, i, k, v)
  {
  }

  /** A failing pass stops at the first key that is not a column or has a
      value absent from the table narrowed so far: every key before the
      failing one is a column and finds all its values, and an UnknownValue
      error names a value absent from the failing key's column in the table
      narrowed by the keys before it. */
  lemma SelectErrorAt(columns: set<string>, rows: seq<Row>, spec: Spec, i: nat)
    requires i <= |spec|
    ensures var s := SelectFrom(columns, rows, spec, i);
      s.outcome.Err? ==> forall j :: i <= j && j + 1 < s.visited ==> spec[j].key in columns
    ensures var s := SelectFrom(columns, rows, spec, i);
      s.outcome.Err? ==> forall j, v :: i <= j && j + 1 < s.visited ==> !AbsentAt(rows, spec, i, j, v)
    ensures var s := SelectFrom(columns, rows, spec, i);
      forall k, v :: 0 <= k < |spec| && k + 1 == s.visited && s.outcome == Err(UnknownValue(spec[k].key, v)) ==>
        AbsentAt(rows, spec, i, k, v)
    ensures var s := SelectFrom(columns, rows, spec, i);
      forall k, v :: 0 <= k < |spec| && k + 1 == s.visited && s.outcome == Err(UnknownValue(spec[k].key, v)) ==>
        NamedAt(rows, spec, i, k, v)
  {
    SelectPassedClean(columns, rows, spec, i);
    SelectErrorValue(columns, rows, spec, i);
    var s := SelectFrom(columns, rows, spec, i);
    forall k, v | 0 <= k < |spec| && k + 1 == s.visited && s.outcome == Err(UnknownValue(spec[k].key, v))
      ensures AbsentAt(rows, spec, i, k, v)
    {
      NamedIsAbsent(rows, spec, i, k, v);
    }
  }

  /** Every key a failing pass got past finds all its values. */
  lemma {:induction false} SelectPassedClean(columns: set<string>, rows: seq<Row>, spec: Spec, i: nat)
    requires i <= |spec|
    ensures var s := SelectFrom(columns, rows, spec, i);
      s.outcome.Err? ==> forall j, v :: i <= j && j + 1 < s.visited ==> !AbsentAt(rows, spec, i, j, v)
    decreases |spec| - i, 1
  {
    if i < |spec| && spec[i].key in columns
       && FirstAbsent(AsList(spec[i].value), ColumnValues(rows, spec[i].key)).None? {
      SelectPassedCleanLater(columns, rows, spec, i);
    }
  }

  /** The case of `SelectPassedClean` where the `i`-th key is a column and
      finds all its values. */
  lemma {:induction false} SelectPassedCleanLater(columns: set<string>, rows: seq<Row>, spec: Spec, i: nat)
    requires i < |spec| && spec[i].key in columns
    requires FirstAbsent(AsList(spec[i].value), ColumnValues(rows, spec[i].key)).None?
    ensures var s := SelectFrom(columns, rows, spec, i);
      s.outcome.Err? ==> forall j, v :: i <= j && j + 1 < s.visited ==> !AbsentAt(rows, spec, i, j, v)
    decreases |spec| - i, 0
  {
    var kept := Keep(rows, spec[i].key, AsList(spec[i].value));
    SelectStep(columns, rows, spec, i);
    SelectPassedClean(columns, kept, spec, i + 1);
    var s := SelectFrom(columns, kept, spec, i + 1);
    forall j, v | i <= j && s.outcome.Err? && j + 1 < s.visited ensures !AbsentAt(rows, spec, i, j, v) {
      if j == i {
        NoneAbsentFirst(rows, spec, i);
      } else {
        AbsentShift(rows, spec, i, j, v);
      }
    }
  }

  /** An UnknownValue error names the first of the failing key's values
      absent from its column in the table narrowed by the keys before it. */
  lemma {:induction false} SelectErrorValue(columns: set<string>, rows: seq<Row>, spec: Spec, i: nat)
    requires i <= |spec|
    ensures var s := SelectFrom(columns, rows, spec, i);
      forall k, v :: 0 <= k < |spec| && k + 1 == s.visited && s.outcome == Err(UnknownValue(spec[k].key, v)) ==>
        NamedAt(rows, spec, i, k, v)
    decreases |spec| - i, 1
  {
    if i < |spec| && spec[i].key in columns {
      match FirstAbsent(AsList(spec[i].value), ColumnValues(rows, spec[i].key))
      case Some(v) =>
        assert SelectFrom(columns, rows, spec, i) == Selection(Err(UnknownValue(spec[i].key, v)), i + 1);
        NamedFirst(rows, spec, i, v);
      case None =>
        SelectErrorValueLater(columns, rows, spec, i);
    }
  }

  /** The case of `SelectErrorValue` where the `i`-th key is a column and
      finds all its values. */
  lemma {:induction false} SelectErrorValueLater(columns: set<string>, rows: seq<Row>, spec: Spec, i: nat)
    requires i < |spec| && spec[i].key in columns
    requires FirstAbsent(AsList(spec[i].value), ColumnValues(rows, spec[i].key)).None?
    ensures var s := SelectFrom(columns, rows, spec, i);
      forall k, v :: 0 <= k < |spec| && k + 1 == s.visited && s.outcome == Err(UnknownValue(spec[k].key, v)) ==>
        NamedAt(rows, spec, i, k, v)
    decreases |spec| - i, 0
  {
    var kept := Keep(rows, spec[i].key, AsList(spec[i].value));
    SelectStep(columns, rows, spec, i);
    SelectErrorValue(columns, kept, spec, i + 1);
    var s := SelectFrom(columns, kept, spec, i + 1);
    forall k, v | 0 <= k < |spec| && k + 1 == s.visited && s.outcome == Err(UnknownValue(spec[k].key, v))
      ensures NamedAt(rows, spec, i, k, v)
    {
      NamedBack(rows, kept, spec, i, k, v);
    }
  }

  /** The caller's dictionary after the pass: the first `n` entries have had
      their lone strings turned into lists. */
  function CoercePrefix(spec: Spec, n: nat): (r: Spec)
    requires n <= |spec|
    ensures |r| == |spec|
    ensures forall i :: 0 <= i < |spec| ==> r[i].key == spec[i].key
    ensures forall i :: 0 <= i < |spec| ==> AsList(r[i].value) == AsList(spec[i].value)
    ensures forall i :: 0 <= i < n ==> r[i].value.List?
    ensures forall i :: n <= i < |spec| ==> r[i] == spec[i]
  {
    seq(|spec|, i requires 0 <= i < |spec| =>
      if i < n then Constraint(spec[i].key, Coerce(spec[i].value)) else spec[i])
  }
}

=== FILE: complete_var_set.dfy ===
/** The complete-variable-set pass of `__filter_cat_by_dictionary`
    (cmip5.py:145-163). A row's group is its `Path` with the last
    (variable) directory removed; for each requested variable in turn, every
    group that offers exactly one of the first variable and that variable is
    dropped whole. */
module CompleteVarSet {
  import opened Sequences
  import opened Text
  import opened CatalogueFilter

  /** Every row has a `Var` and a `Path` cell. */
  predicate Cataloguable(rows: seq<Row>)
  {
    forall r :: r in rows ==> "Var" in r && "Path" in r
  }

  /** The `Path_head` column: the row's path without its last component. */
  function Group(r: Row): string
    requires "Path" in r
  {
    PathHead(r["Path"])
  }

  /** The groups in which variable `v` is present. */
  function Groups(rows: seq<Row>, v: string): set<string>
    requires Cataloguable(rows)
  {
    set r | r in rows && r["Var"] == v :: Group(r)
  }

  /** `cat.drop(...)` for every group in `drop`, keeping the order of the rest. */
  function DropGroups(rows: seq<Row>, drop: set<string>): (r: seq<Row>)
    requires Cataloguable(rows)
    ensures Subseq(r, rows)
    ensures forall x :: x in r <==> x in rows && Group(x) !in drop
    ensures forall x {:trigger multiset(r)[x]} :: x in rows ==> multiset(r)[x] == if Group(x) in drop then 0 else multiset(rows)[x]
    ensures Cataloguable(r)
    decreases |rows|
  {
    if |rows| == 0 then []
    else
      var rest := DropGroups(rows[1..], drop);
      assert rows == [rows[0]] + rows[1..];
      assert forall x :: x in rows <==> x == rows[0] || x in rows[1..];
      if Group(rows[0]) !in drop then [rows[0]] + rest else rest
  }

  /** The symmetric difference of the groups of `first` and of `v`. */
  function Imbalance(rows: seq<Row>, first: string, v: string): set<string>
    requires Cataloguable(rows)
  {
    (Groups(rows, first) - Groups(rows, v)) + (Groups(rows, v) - Groups(rows, first))
  }

  /** The loop `for val in vals` from position `j` on. */
  function PassFrom(rows: seq<Row>, vals: seq<string>, j: nat): (r: seq<Row>)
    requires Cataloguable(rows)
    requires 1 <= |vals| && j <= |vals|
    ensures Subseq(r, rows)
    ensures forall x :: x in r ==> x in rows
    ensures Cataloguable(r)
    decreases |vals| - j
  {
    if j == |vals| then
      SubseqReflexive(rows);
      rows
    else
      var next := DropGroups(rows, Imbalance(rows, vals[0], vals[j]));
      var r := PassFrom(next, vals, j + 1);
      SubseqTransitive(r, next, rows);
      r
  }

  /** One complete-variable-set pass over the requested variables `vals`. */
  function CompletePass(rows: seq<Row>, vals: seq<string>): (r: seq<Row>)
    requires Cataloguable(rows)
    requires |vals| >= 1
    ensures Subseq(r, rows) && Cataloguable(r)
    ensures forall k :: 0 <= k < |vals| ==> Groups(r, vals[k]) == Groups(r, vals[0])
  {
    PassBalances(rows, vals, 0);
    PassFrom(rows, vals, 0)
  }

  lemma GroupsAfterDrop(rows: seq<Row>, drop: set<string>, v: string)
    requires Cataloguable(rows)
    ensures Groups(DropGroups(rows, drop), v) == Groups(rows, v) - drop
  {
    var r := DropGroups(rows, drop);
    forall g | g in Groups(rows, v) - drop ensures g in Groups(r, v) {
      var x :| x in rows && x["Var"] == v && Group(x) == g;
      assert x in r;
    }
  }

  /** Rows leave only as whole groups: two rows of the same group are both
      kept or both dropped. */
  lemma {:induction false} PassWholeGroups(rows: seq<Row>, vals: seq<string>, j: nat)
    requires Cataloguable(rows)
    requires 1 <= |vals| && j <= |vals|
    ensures forall x, y :: x in rows && y in rows && Group(x) == Group(y) ==>
              (x in PassFrom(rows, vals, j) <==> y in PassFrom(rows, vals, j))
    decreases |vals| - j
  {
    if j < |vals| {
      var d := Imbalance(rows, vals[0], vals[j]);
      var next := DropGroups(rows, d);
      PassWholeGroups(next, vals, j + 1);
    }
  }

  /** Once variables `vals[..j]` have been balanced against `vals[0]`, the
      rest of the pass leaves every requested variable present in exactly
      the same groups. */
  lemma {:induction false} PassBalances(rows: seq<Row>, vals: seq<string>, j: nat)
    requires Cataloguable(rows)
    requires 1 <= |vals| && j <= |vals|
    requires forall k :: 0 <= k < j ==> Groups(rows, vals[k]) == Groups(rows, vals[0])
    ensures forall k :: 0 <= k < |vals| ==>
              Groups(PassFrom(rows, vals, j), vals[k]) == Groups(PassFrom(rows, vals, j), vals[0])
    decreases |vals| - j
  {
    if j < |vals| {
      var d := Imbalance(rows, vals[0], vals[j]);
      var next := DropGroups(rows, d);
      var first := Groups(rows, vals[0]);
      GroupsAfterDrop(rows, d, vals[0]);
      assert Groups(next, vals[0]) == first - d;
      forall k | 0 <= k < j + 1 ensures Groups(next, vals[k]) == Groups(next, vals[0]) {
        GroupsAfterDrop(rows, d, vals[k]);
        if k == j {
          var jth := Groups(rows, vals[j]);
          assert d == (first - jth) + (jth - first);
          assert jth - d == first - d;
        }
      }
      PassBalances(next, vals, j + 1);
    }
  }

  /** After the pass every surviving group offers every requested variable
      (the rows entering the pass all carry one of the requested variables,
      as the per-key pass guarantees). */
  lemma CompletePassComplete(rows: seq<Row>, vals: seq<string>)
    requires Cataloguable(rows)
    requires |vals| >= 1
    requires forall x :: x in rows ==> x["Var"] in vals
    ensures forall x, v :: x in CompletePass(rows, vals) && v in vals ==>
              Group(x) in Groups(CompletePass(rows, vals), v)
  {
    var r := CompletePass(rows, vals);
    PassBalances(rows, vals, 0);
    forall x, v | x in r && v in vals ensures Group(x) in Groups(r, v) {
      var k :| 0 <= k < |vals| && vals[k] == x["Var"];
      var m :| 0 <= m < |vals| && vals[m] == v;
      assert Group(x) in Groups(r, vals[k]);
    }
  }

  /** A group that already offers every requested variable is never dropped. */
  lemma {:induction false} PassKeepsCompleteGroups(rows: seq<Row>, vals: seq<string>, j: nat, x: Row)
    requires Cataloguable(rows)
    requires 1 <= |vals| && j <= |vals|
    requires x in rows
    requires forall v :: v in vals ==> Group(x) in Groups(rows, v)
    ensures x in PassFrom(rows, vals, j)
    decreases |vals| - j
  {
    if j < |vals| {
      var d := Imbalance(rows, vals[0], vals[j]);
      var next := DropGroups(rows, d);
      forall v | v in vals ensures Group(x) in Groups(next, v) {
        GroupsAfterDrop(rows, d, v);
      }
      PassKeepsCompleteGroups(next, vals, j + 1, x);
    }
  }

  lemma {:induction false} DropNothing(rows: seq<Row>, drop: set<string>)
    requires Cataloguable(rows)
    requires forall x :: x in rows ==> Group(x) !in drop
    ensures DropGroups(rows, drop) == rows
    decreases |rows|
  {
    if |rows| > 0 {
      DropNothing(rows[1..], drop);
    }
  }

  /** On a balanced table the pass changes nothing. */
  lemma {:induction false} PassOnBalanced(rows: seq<Row>, vals: seq<string>, j: nat)
    requires Cataloguable(rows)
    requires 1 <= |vals| && j <= |vals|
    requires forall k :: 0 <= k < |vals| ==> Groups(rows, vals[k]) == Groups(rows, vals[0])
    ensures PassFrom(rows, vals, j) == rows
    decreases |vals| - j
  {
    if j < |vals| {
      DropNothing(rows, Imbalance(rows, vals[0], vals[j]));
      PassOnBalanced(rows, vals, j + 1);
    }
  }

  /** Running the pass a second time changes nothing. */
  lemma CompletePassIdempotent(rows: seq<Row>, vals: seq<string>)
    requires Cataloguable(rows)
    requires |vals| >= 1
    ensures CompletePass(CompletePass(rows, vals), vals) == CompletePass(rows, vals)
  {
    PassBalances(rows, vals, 0);
    PassOnBalanced(CompletePass(rows, vals), vals, 0);
  }
}

=== FILE: dicts.dfy ===
/** Merging and comparing filter dictionaries (cmip5.py:69-98, 171-199).
    A key that is absent behaves like a key mapped to the empty list. */
module Dicts {
  import opened Sequences
  import opened Ordering
  import opened Values

  type Dict = map<string, Value>

  datatype Verdict = Same | Different

  /** The list stored under `k`, the empty list when `k` is absent. */
  function Entries(d: Dict, k: string): seq<string>
  {
    if k in d then AsList(d[k]) else []
  }

  /** The values stored under `k`, with order and duplicates forgotten. */
  function Members(d: Dict, k: string): set<string>
  {
    Elems(Entries(d, k))
  }

  /** One iteration of the loop in `__combine_dictionaries`: the list under
      `key` becomes the duplicate-free union of both lists, and the key is
      deleted when that union is empty. */
  function CombineKey(d1: Dict, d2: Dict, key: string): (r: Dict)
    ensures key in r <==> Members(d1, key) + Members(d2, key) != {}
    ensures key in r ==> r[key].List? && NoDup(r[key].items)
    ensures Members(r, key) == Members(d1, key) + Members(d2, key)
    ensures forall k :: k != key ==> (k in r <==> k in d1) && (k in r ==> r[k] == d1[k])
  {
    var merged := Dedup(Entries(d1, key) + Entries(d2, key));
    assert Elems(Entries(d1, key) + Entries(d2, key)) == Members(d1, key) + Members(d2, key);
    ElemsEmpty(merged);
    if |merged| == 0 then d1 - {key} else d1[key := List(merged)]
  }

  /** `__combine_dictionaries(keys, dict1, dict2)`: for every listed key the
      result holds the union of both dictionaries' values, or nothing when
      the union is empty; every other key keeps dict1's entry untouched and
      nothing else is taken from dict2. The inputs are values, so they are
      not changed. */
  function Combine(keys: seq<string>, d1: Dict, d2: Dict): (r: Dict)
    ensures forall k :: k in keys ==> (k in r <==> Members(d1, k) + Members(d2, k) != {})
    ensures forall k :: k in keys && k in r ==>
              r[k].List? && NoDup(r[k].items) && Elems(r[k].items) == Members(d1, k) + Members(d2, k)
    ensures forall k :: k !in keys ==> (k in r <==> k in d1) && (k in r ==> r[k] == d1[k])
    decreases |keys|
  {
    if |keys| == 0 then d1
    else
      var d1' := CombineKey(d1, d2, keys[0]);
      var r := Combine(keys[1..], d1', d2);
      assert forall k :: k in keys <==> k == keys[0] || k in keys[1..] by {
        assert keys == [keys[0]] + keys[1..];
      }
      assert forall k :: Members(d1', k) + Members(d2, k) == Members(d1, k) + Members(d2, k);
      r
  }

  /** The sorted, duplicate-free lists under `k` agree. */
  predicate SameSortedEntries(d1: Dict, d2: Dict, k: string)
  {
    SortedSet(Entries(d1, k)) == SortedSet(Entries(d2, k))
  }

  /** `__compare_dict`: 'same' when every key of either dictionary holds the
      same sorted, duplicate-free list in both. That is equality of value
      sets, key by key, with a missing key standing for no values. */
  function Compare(d1: Dict, d2: Dict): (r: Verdict)
    ensures r == Same <==> forall k :: Members(d1, k) == Members(d2, k)
  {
    if forall k | k in d1.Keys + d2.Keys :: SameSortedEntries(d1, d2, k) then
      assert forall k :: Members(d1, k) == Members(d2, k) by {
        forall k ensures Members(d1, k) == Members(d2, k) {
          if k in d1.Keys + d2.Keys {
            SameSortedEntriesIff(d1, d2, k);
          }
        }
      }
      Same
    else
      assert exists k :: Members(d1, k) != Members(d2, k) by {
        var k :| k in d1.Keys + d2.Keys && !SameSortedEntries(d1, d2, k);
        SameSortedEntriesIff(d1, d2, k);
      }
      Different
  }

  lemma SameSortedEntriesIff(d1: Dict, d2: Dict, k: string)
    ensures SameSortedEntries(d1, d2, k) <==> Members(d1, k) == Members(d2, k)
  {
    SortedSetEqualIff(Entries(d1, k), Entries(d2, k));
  }

  lemma CompareReflexiveSymmetric(d1: Dict, d2: Dict)
    ensures Compare(d1, d1) == Same
    ensures Compare(d1, d2) == Compare(d2, d1)
  {
  }
}

=== FILE: filter.dfy ===
/** `__filter_cat_by_dictionary(cat, cat_dict, complete_var_set)` as a
    whole (cmip5.py:102-166).

    As the file is written, the statements that build `Path_head` and drop
    incomplete groups (cmip5.py:145-163) are indented with two tabs, which
    Python 2 reads as column 16: the same column as the `if` at cmip5.py:141.
    They are therefore the body of `for i in other_keys` (cmip5.py:140): the
    complete-variable-set pass runs once per key other than `Var`, after
    that key's single-value check, and not at all when `Var` is the only
    key. `OtherKeysLoop` models exactly that loop. */
module Filter {
  import opened Results
  import opened Sequences
  import opened Values
  import opened CatalogueFilter
  import opened CompleteVarSet

  /** The filter's result and the caller's dictionary afterwards (the filter
      rewrites lone strings as lists in place). */
  datatype FilterRun = FilterRun(result: Result<Table, FilterError>, specAfter: Spec)

  /** Position of the `Var` entry, if there is one. */
  function VarIndex(spec: Spec): (r: Option<nat>)
    ensures r.Some? ==> r.value < |spec| && spec[r.value].key == "Var"
    ensures r.None? <==> forall i :: 0 <= i < |spec| ==> spec[i].key != "Var"
    decreases |spec|
  {
    if |spec| == 0 then None
    else if spec[|spec| - 1].key == "Var" then Some(|spec| - 1)
    else VarIndex(spec[..|spec| - 1])
  }

  /** `other_keys`: the entries other than `Var`, in order. */
  function OtherKeys(spec: Spec): (r: Spec)
    ensures forall c :: c in r <==> c in spec && c.key != "Var"
    ensures |spec| > 0 && spec[0].key != "Var" ==> |r| > 0 && r[0] == spec[0]
    ensures Subseq(r, spec)
    decreases |spec|
  {
    if |spec| == 0 then []
    else
      var rest := OtherKeys(spec[1..]);
      assert forall c :: c in spec <==> c == spec[0] || c in spec[1..];
      if spec[0].key == "Var" then
        assert Subseq(rest, spec);
        rest
      else [spec[0]] + rest
  }

  /** Rows of a valid table that carry the columns the pass reads. */
  predicate PassReady(columns: set<string>, rows: seq<Row>)
  {
    && "Var" in columns
    && forall r :: r in rows ==> columns <= r.Keys
  }

  /** `for i in other_keys:` with the single-value check and, as indented in
      the source, the complete-variable-set pass in its body. Reading the
      `Path` column fails when the table has none. */
  function OtherKeysLoop(columns: set<string>, rows: seq<Row>, others: Spec, vals: seq<string>, i: nat)
    : (r: Result<seq<Row>, FilterError>)
    requires PassReady(columns, rows)
    requires |vals| >= 1 && i <= |others|
    ensures r.Ok? ==> PassReady(columns, r.value) && Subseq(r.value, rows)
    ensures r.Ok? ==> forall x :: x in r.value ==> x in rows
    decreases |others| - i
  {
    if i == |others| then
      SubseqReflexive(rows);
      Ok(rows)
    else if |AsList(others[i].value)| > 1 then Err(InvalidQuery(SeveralValues(others[i].key)))
    else if "Path" !in columns then Err(UnknownColumn("Path"))
    else
      var once := CompletePass(rows, vals);
      var r := OtherKeysLoop(columns, once, others, vals, i + 1);
      if r.Ok? then SubseqTransitive(r.value, once, rows); r else r
  }

  /** Some entry of `others`, from the `i`-th on, holds more than one value. */
  predicate SeveralFrom(others: Spec, i: nat)
  {
    exists j :: i <= j < |others| && |AsList(others[j].value)| > 1
  }

  /** The `j`-th entry of `others` is the first one from the `i`-th on that
      holds more than one value. */
  predicate FirstSeveral(others: Spec, i: int, j: int)
  {
    && 0 <= i <= j < |others| && |AsList(others[j].value)| > 1
    && forall k :: i <= k < j ==> |AsList(others[k].value)| <= 1
  }

  /** The loop fails with the single-value error, naming the first other
      key that holds several values, exactly when there is such a key; on
      success it has run the pass once if there was any other key (the pass
      is idempotent, so repeating it changes nothing) and not at all
      otherwise. */
  lemma {:induction false} OtherKeysLoopOutcome(columns: set<string>, rows: seq<Row>, others: Spec, vals: seq<string>, i: nat)
    requires PassReady(columns, rows)
    requires |vals| >= 1 && i <= |others|
    requires "Path" in columns
    ensures var r := OtherKeysLoop(columns, rows, others, vals, i);
      && (r.Err? <==> SeveralFrom(others, i))
      && (r.Err? ==> exists j :: FirstSeveral(others, i, j) && r.error == InvalidQuery(SeveralValues(others[j].key)))
      && (r.Ok? && i < |others| ==> r.value == CompletePass(rows, vals))
      && (r.Ok? && i == |others| ==> r.value == rows)
    decreases |others| - i
  {
    if i < |others| && |AsList(others[i].value)| <= 1 {
      assert Cataloguable(rows);
      var once := CompletePass(rows, vals);
      OtherKeysLoopOutcome(columns, once, others, vals, i + 1);
      CompletePassIdempotent(rows, vals);
      if SeveralFrom(others, i + 1) {
        var j :| i + 1 <= j < |others| && |AsList(others[j].value)| > 1;
        assert i <= j;
      }
      if SeveralFrom(others, i) {
        var j :| i <= j < |others| && |AsList(others[j].value)| > 1;
        assert i + 1 <= j;
      }
    }
    OtherKeysLoopError(columns, rows, others, vals, i);
  }

  /** The single-value error names the first other key holding several
      values. */
  lemma {:induction false} OtherKeysLoopError(columns: set<string>, rows: seq<Row>, others: Spec, vals: seq<string>, i: nat)
    requires PassReady(columns, rows)
    requires |vals| >= 1 && i <= |others|
    requires "Path" in columns
    ensures var r := OtherKeysLoop(columns, rows, others, vals, i);
      r.Err? ==> exists j :: FirstSeveral(others, i, j) && r.error == InvalidQuery(SeveralValues(others[j].key))
    decreases |others| - i
  {
    if i < |others| && |AsList(others[i].value)| <= 1 {
      assert Cataloguable(rows);
      var once := CompletePass(rows, vals);
      OtherKeysLoopError(columns, once, others, vals, i + 1);
      var r := OtherKeysLoop(columns, once, others, vals, i + 1);
      if r.Err? {
        var j :| FirstSeveral(others, i + 1, j) && r.error == InvalidQuery(SeveralValues(others[j].key));
        assert FirstSeveral(others, i, j);
      }
    } else if i < |others| {
      assert FirstSeveral(others, i, i);
    }
  }

  /** Without a `Path` column the loop fails on its first single-valued key. */
  lemma OtherKeysLoopWithoutPath(columns: set<string>, rows: seq<Row>, others: Spec, vals: seq<string>)
    requires PassReady(columns, rows)
    requires |vals| >= 1
    requires "Path" !in columns
    ensures var r := OtherKeysLoop(columns, rows, others, vals, 0);
      && (|others| == 0 ==> r == Ok(rows))
      && (|others| > 0 && |AsList(others[0].value)| > 1 ==> r == Err(InvalidQuery(SeveralValues(others[0].key))))
      && (|others| > 0 && |AsList(others[0].value)| <= 1 ==> r == Err(UnknownColumn("Path")))
  {
  }

  /** Checks and pass run after a successful per-key pass when a complete
      variable set is requested (cmip5.py:128-163). */
  function CompleteSetStage(columns: set<string>, rows: seq<Row>, spec: Spec): (r: Result<seq<Row>, FilterError>)
    requires forall r :: r in rows ==> columns <= r.Keys
    requires forall i :: 0 <= i < |spec| ==> spec[i].key in columns
    ensures r.Ok? ==> Subseq(r.value, rows) && forall x :: x in r.value ==> x in rows
  {
    match VarIndex(spec)
    case None => Err(InvalidQuery(VarNotGiven))
    case Some(vi) =>
      assert PassReady(columns, rows);
      var vals := AsList(spec[vi].value);
      if |vals| < 2 then Err(InvalidQuery(TooFewVars))
      else OtherKeysLoop(columns, rows, OtherKeys(spec), vals, 0)
  }

  /** The filtered table, or the error the filter raises. */
  function FilterResult(t: Table, spec: Spec, completeVarSet: bool): (r: Result<Table, FilterError>)
    requires Valid(t)
    ensures r.Ok? ==> r.value.columns == t.columns && Valid(r.value)
    ensures r.Ok? ==> Subseq(r.value.rows, t.rows)
    ensures r.Ok? ==> forall x :: x in r.value.rows ==> MatchesAll(x, spec)
    ensures r.Ok? && !completeVarSet ==> r.value.rows == Matching(t.rows, spec)
    ensures var sel := SelectFrom(t.columns, t.rows, spec, 0);
      sel.outcome.Err? ==> r == Err(sel.outcome.error)
    ensures !completeVarSet ==> (r.Ok? <==> SelectFrom(t.columns, t.rows, spec, 0).outcome.Ok?)
  {
    var sel := SelectFrom(t.columns, t.rows, spec, 0);
    if sel.outcome.Err? then Err(sel.outcome.error)
    else
      var rows := sel.outcome.value;
      SelectIsMatching(t.columns, t.rows, spec, 0);
      assert spec[0..] == spec;
      assert rows == Matching(t.rows, spec);
      if !completeVarSet then Ok(Table(t.columns, rows))
      else CompleteSetResult(t, spec, rows)
  }

  /** The complete-variable-set stage applied to the per-key result. */
  function CompleteSetResult(t: Table, spec: Spec, rows: seq<Row>): (r: Result<Table, FilterError>)
    requires Valid(t)
    requires SelectFrom(t.columns, t.rows, spec, 0).outcome == Ok(rows)
    requires rows == Matching(t.rows, spec)
    ensures r.Ok? ==> r.value.columns == t.columns && Valid(r.value)
    ensures r.Ok? ==> Subseq(r.value.rows, t.rows)
    ensures r.Ok? ==> forall x :: x in r.value.rows ==> MatchesAll(x, spec)
  {
    match CompleteSetStage(t.columns, rows, spec)
    case Err(e) => Err(e)
    case Ok(rows') =>
      SubseqTransitive(rows', rows, t.rows);
      Ok(Table(t.columns, rows'))
  }

  /** The whole filter: its result and the caller's dictionary afterwards,
      in which every key the per-key pass reached holds a list. */
  function FilterCatalogue(t: Table, spec: Spec, completeVarSet: bool): (run: FilterRun)
    requires Valid(t)
    requires DistinctKeys(spec)
    ensures |run.specAfter| == |spec|
    ensures forall i :: 0 <= i < |spec| ==>
              run.specAfter[i].key == spec[i].key && AsList(run.specAfter[i].value) == AsList(spec[i].value)
    ensures run.result.Ok? ==> forall i :: 0 <= i < |spec| ==> run.specAfter[i].value.List?
    ensures run.result == FilterResult(t, spec, completeVarSet)
    ensures var reached := SelectFrom(t.columns, t.rows, spec, 0).visited;
      && (forall i :: 0 <= i < reached ==> run.specAfter[i].value.List?)
      && (forall i :: reached <= i < |spec| ==> run.specAfter[i] == spec[i])
  {
    var sel := SelectFrom(t.columns, t.rows, spec, 0);
    FilterRun(FilterResult(t, spec, completeVarSet), CoercePrefix(spec, sel.visited))
  }

  lemma {:induction false} MatchingAllMatch(rows: seq<Row>, spec: Spec)
    requires forall x :: x in rows ==> MatchesAll(x, spec)
    ensures Matching(rows, spec) == rows
    decreases |rows|
  {
    if |rows| > 0 {
      MatchingAllMatch(rows[1..], spec);
    }
  }

  /** With a complete variable set requested and the per-key pass passed:
      no `Var` key, or fewer than two variables, is an InvalidQuery; with a
      `Path` column the request fails exactly when some other key holds
      several values. */
  lemma CompleteVarSetOutcome(t: Table, spec: Spec)
    requires Valid(t)
    requires SelectFrom(t.columns, t.rows, spec, 0).outcome.Ok?
    ensures var r := FilterResult(t, spec, true);
      && (VarIndex(spec).None? ==> r == Err(InvalidQuery(VarNotGiven)))
      && (VarIndex(spec).Some? && |AsList(spec[VarIndex(spec).value].value)| < 2 ==>
            r == Err(InvalidQuery(TooFewVars)))
      && (VarIndex(spec).Some? && |AsList(spec[VarIndex(spec).value].value)| >= 2 && "Path" in t.columns ==>
            (r.Err? <==> exists i :: 0 <= i < |spec| && spec[i].key != "Var" && |AsList(spec[i].value)| > 1))
  {
    var rows := SelectFrom(t.columns, t.rows, spec, 0).outcome.value;
    SelectIsMatching(t.columns, t.rows, spec, 0);
    assert spec[0..] == spec;
    if VarIndex(spec).Some? {
      var vals := AsList(spec[VarIndex(spec).value].value);
      if |vals| >= 2 && "Path" in t.columns {
        assert "Var" in t.columns;
        var others := OtherKeys(spec);
        OtherKeysLoopOutcome(t.columns, rows, others, vals, 0);
        SeveralOtherKeys(spec);
      }
    }
  }

  /** Some entry of `other_keys` holds several values exactly when some
      key other than `Var` does. */
  lemma SeveralOtherKeys(spec: Spec)
    ensures SeveralFrom(OtherKeys(spec), 0) <==>
              exists i :: 0 <= i < |spec| && spec[i].key != "Var" && |AsList(spec[i].value)| > 1
  {
    var others := OtherKeys(spec);
    if SeveralFrom(others, 0) {
      var j :| 0 <= j < |others| && |AsList(others[j].value)| > 1;
      assert others[j] in spec;
    }
    if exists i :: 0 <= i < |spec| && spec[i].key != "Var" && |AsList(spec[i].value)| > 1 {
      var i :| 0 <= i < |spec| && spec[i].key != "Var" && |AsList(spec[i].value)| > 1;
      assert spec[i] in others;
    }
  }

  /** A successful complete-variable-set request has passed its checks and
      returns the rows meeting every constraint after one pass when some key
      other than `Var` was given, and untouched when `Var` is the only key
      (see the module comment). */
  lemma CompleteVarSetResult(t: Table, spec: Spec)
    requires Valid(t)
    ensures var r := FilterResult(t, spec, true);
      r.Ok? ==>
        && VarIndex(spec).Some? && |AsList(spec[VarIndex(spec).value].value)| >= 2
        && (forall i :: 0 <= i < |spec| && spec[i].key != "Var" ==> |AsList(spec[i].value)| <= 1)
        && (|OtherKeys(spec)| > 0 ==> "Path" in t.columns && Cataloguable(Matching(t.rows, spec)))
        && var rows := Matching(t.rows, spec);
           var vals := AsList(spec[VarIndex(spec).value].value);
           r.value.rows == if |OtherKeys(spec)| > 0 then CompletePass(rows, vals) else rows
  {
    if FilterResult(t, spec, true).Ok? {
      var sel := SelectFrom(t.columns, t.rows, spec, 0);
      SelectIsMatching(t.columns, t.rows, spec, 0);
      assert spec[0..] == spec;
      var rows := sel.outcome.value;
      var vi := VarIndex(spec).value;
      var vals := AsList(spec[vi].value);
      assert "Var" in t.columns;
      var others := OtherKeys(spec);
      var kept := FilterResult(t, spec, true).value.rows;
      assert OtherKeysLoop(t.columns, rows, others, vals, 0) == Ok(kept);
      if "Path" in t.columns {
        OtherKeysLoopOutcome(t.columns, rows, others, vals, 0);
        forall i | 0 <= i < |spec| && spec[i].key != "Var" ensures |AsList(spec[i].value)| <= 1 {
          assert spec[i] in others;
          var j :| 0 <= j < |others| && others[j] == spec[i];
        }
        assert Cataloguable(rows);
      } else {
        OtherKeysLoopWithoutPath(t.columns, rows, others, vals);
        assert |others| == 0;
      }
    }
  }

  /** The groups of a successful complete-variable-set request: rows leave
      as whole groups, a group that already offered every requested variable
      is kept, and when some key other than `Var` was given every surviving
      group offers every requested variable. */
  lemma CompleteVarSetGroups(t: Table, spec: Spec)
    requires Valid(t)
    requires "Path" in t.columns
    ensures var r := FilterResult(t, spec, true);
      r.Ok? ==>
        && VarIndex(spec).Some?
        && Cataloguable(Matching(t.rows, spec)) && Cataloguable(r.value.rows)
        && var kept := r.value.rows;
           var rows := Matching(t.rows, spec);
           var vals := AsList(spec[VarIndex(spec).value].value);
           && (forall x, y :: x in rows && y in rows && Group(x) == Group(y) ==> (x in kept <==> y in kept))
           && (forall x :: x in rows && (forall v :: v in vals ==> Group(x) in Groups(rows, v)) ==> x in kept)
           && (|OtherKeys(spec)| > 0 ==> forall x, v :: x in kept && v in vals ==> Group(x) in Groups(kept, v))
  {
    if FilterResult(t, spec, true).Ok? {
      CompleteVarSetGroupsOk(t, spec);
    }
  }

  lemma CompleteVarSetGroupsOk(t: Table, spec: Spec)
    requires Valid(t)
    requires FilterResult(t, spec, true).Ok?
    requires "Path" in t.columns
    ensures Cataloguable(Matching(t.rows, spec))
    ensures Cataloguable(FilterResult(t, spec, true).value.rows)
    ensures var kept := FilterResult(t, spec, true).value.rows;
      var rows := Matching(t.rows, spec);
      var vals := AsList(spec[VarIndex(spec).value].value);
      && (forall x, y :: x in rows && y in rows && Group(x) == Group(y) ==> (x in kept <==> y in kept))
      && (forall x :: x in rows && (forall v :: v in vals ==> Group(x) in Groups(rows, v)) ==> x in kept)
      && (|OtherKeys(spec)| > 0 ==> forall x, v :: x in kept && v in vals ==> Group(x) in Groups(kept, v))
  {
    CompleteVarSetResult(t, spec);
    var rows := Matching(t.rows, spec);
    assert Cataloguable(rows);
    assert "Var" in t.columns by {
      SelectIsMatching(t.columns, t.rows, spec, 0);
      assert spec[VarIndex(spec).value].key in t.columns;
    }
    var vi := VarIndex(spec).value;
    var vals := AsList(spec[vi].value);
    if |OtherKeys(spec)| > 0 {
      var kept := CompletePass(rows, vals);
      PassWholeGroups(rows, vals, 0);
      forall x | x in rows && (forall v :: v in vals ==> Group(x) in Groups(rows, v)) ensures x in kept {
        PassKeepsCompleteGroups(rows, vals, 0, x);
      }
      forall x | x in rows ensures x["Var"] in vals {
        assert MatchesAll(x, spec);
        assert Accepts(x, spec[vi].key, vals);
      }
      CompletePassComplete(rows, vals);
    }
  }

  /** Filtering the result again with the same dictionary gives the same
      table back, unless a requested value has vanished from the narrowed
      table, in which case the second call raises (see
      `RefilterCanFail`). */
  lemma FilterRefilter(t: Table, spec: Spec, completeVarSet: bool)
    requires Valid(t)
    ensures var first := FilterResult(t, spec, completeVarSet);
      first.Ok? ==>
        var again := FilterResult(first.value, spec, completeVarSet);
        again == Ok(first.value) || (again.Err? && again.error.UnknownValue?)
  {
    if FilterResult(t, spec, completeVarSet).Ok? {
      var t1 := FilterResult(t, spec, completeVarSet).value;
      var sel := SelectFrom(t.columns, t.rows, spec, 0);
      assert forall j :: 0 <= j < |spec| ==> spec[j].key in t1.columns;
      SelectFailsIff(t1.columns, t1.rows, spec, 0);
      var sel1 := SelectFrom(t1.columns, t1.rows, spec, 0);
      if sel1.outcome.Ok? {
        SelectIsMatching(t1.columns, t1.rows, spec, 0);
        assert spec[0..] == spec;
        MatchingAllMatch(t1.rows, spec);
        assert sel1.outcome.value == t1.rows;
        if completeVarSet {
          SelectIsMatching(t.columns, t.rows, spec, 0);
          var rows := sel.outcome.value;
          var vals := AsList(spec[VarIndex(spec).value].value);
          var others := OtherKeys(spec);
          assert "Var" in t.columns;
          assert OtherKeysLoop(t.columns, rows, others, vals, 0) == Ok(t1.rows);
          if "Path" in t.columns {
            assert Cataloguable(rows);
            OtherKeysLoopOutcome(t.columns, rows, others, vals, 0);
            OtherKeysLoopOutcome(t1.columns, t1.rows, others, vals, 0);
            if |others| > 0 {
              CompletePassIdempotent(rows, vals);
            }
          } else {
            OtherKeysLoopWithoutPath(t.columns, rows, others, vals);
            OtherKeysLoopWithoutPath(t1.columns, t1.rows, others, vals);
          }
        }
      }
    }
  }

  /** Corrected complete-variable-set stage: as written, and in addition,
      when `Var` is the only key (so that the loop body holding the pass
      never ran), one pass over the rows. */
  function CompleteSetStageIntended(columns: set<string>, rows: seq<Row>, spec: Spec)
    : (r: Result<seq<Row>, FilterError>)
    requires forall r :: r in rows ==> columns <= r.Keys
    requires forall i :: 0 <= i < |spec| ==> spec[i].key in columns
    ensures r.Ok? ==> Subseq(r.value, rows)
  {
    match CompleteSetStage(columns, rows, spec)
    case Err(e) => Err(e)
    case Ok(kept) =>
      if |OtherKeys(spec)| > 0 then Ok(kept)
      else if "Path" !in columns then Err(UnknownColumn("Path"))
      else
        var vals := AsList(spec[VarIndex(spec).value].value);
        assert "Var" in columns && Cataloguable(kept);
        var once := CompletePass(kept, vals);
        SubseqTransitive(once, kept, rows);
        Ok(once)
  }

  /** With the correction, every group that survives a complete-variable-set
      request offers every requested variable, whichever keys were given. */
  lemma IntendedStageComplete(columns: set<string>, rows: seq<Row>, spec: Spec)
    requires forall r :: r in rows ==> columns <= r.Keys
    requires forall i :: 0 <= i < |spec| ==> spec[i].key in columns
    requires forall x :: x in rows ==> MatchesAll(x, spec)
    ensures var r := CompleteSetStageIntended(columns, rows, spec);
      r.Ok? ==>
        && "Path" in columns && "Var" in columns && VarIndex(spec).Some?
        && Cataloguable(r.value)
        && forall x, v :: x in r.value && v in AsList(spec[VarIndex(spec).value].value) ==>
             Group(x) in Groups(r.value, v)
  {
    if CompleteSetStageIntended(columns, rows, spec).Ok? {
      var vi := VarIndex(spec).value;
      var vals := AsList(spec[vi].value);
      var others := OtherKeys(spec);
      assert "Var" in columns;
      var kept := CompleteSetStage(columns, rows, spec).value;
      forall x | x in rows ensures x["Var"] in vals {
        assert MatchesAll(x, spec);
        assert Accepts(x, spec[vi].key, vals);
      }
      if "Path" !in columns {
        OtherKeysLoopWithoutPath(columns, rows, others, vals);
        assert false;
      }
      assert Cataloguable(rows);
      OtherKeysLoopOutcome(columns, rows, others, vals, 0);
      CompletePassComplete(rows, vals);
    }
  }

  lemma HeadsOfExamplePaths()
    ensures Text.PathHead("a/tas") == "a" && Text.PathHead("b/pr") == "b"
  {
    Text.PathHeadOfJoin(["a"], "tas");
    assert ["a"] + ["tas"] == ["a", "tas"];
    assert Text.Join(["a", "tas"], '/') == "a/tas";
    Text.PathHeadOfJoin(["b"], "pr");
    assert ["b"] + ["pr"] == ["b", "pr"];
    assert Text.Join(["b", "pr"], '/') == "b/pr";
  }

  /** The two-row table of `VarOnlyKeepsIncompleteGroup`: directory 'a'
      holds only 'tas', directory 'b' only 'pr'. */
  lemma SplitGroupsTable(a: Row, b: Row)
    requires a == map["Var" := "tas", "Path" := "a/tas"]
    requires b == map["Var" := "pr", "Path" := "b/pr"]
    ensures Group(a) == "a" && Group(b) == "b"
    ensures ColumnValues([a, b], "Var") == {"tas", "pr"}
    ensures Groups([a, b], "tas") == {"a"} && Groups([a, b], "pr") == {"b"}
  {
    HeadsOfExamplePaths();
    var rows := [a, b];
    assert a["Var"] == "tas" && a["Path"] == "a/tas";
    assert b["Var"] == "pr" && b["Path"] == "b/pr";
    assert a in rows && b in rows;
    assert forall r :: r in rows ==> r == a || r == b;
  }

  lemma ExampleSelect(a: Row, b: Row)
    requires a == map["Var" := "tas", "Path" := "a/tas"]
    requires b == map["Var" := "pr", "Path" := "b/pr"]
    ensures SelectFrom({"Var", "Path"}, [a, b], [Constraint("Var", List(["tas", "pr"]))], 0).outcome == Ok([a, b])
  {
    var rows := [a, b];
    var vals := ["tas", "pr"];
    var spec := [Constraint("Var", List(vals))];
    SplitGroupsTable(a, b);
    assert Keep(rows, "Var", vals) == rows by {
      assert Keep(rows[1..], "Var", vals) == [b];
    }
    assert SelectFrom({"Var", "Path"}, rows, spec, 1) == Selection(Ok(rows), 1);
  }

  lemma ExampleStage(a: Row, b: Row)
    requires a == map["Var" := "tas", "Path" := "a/tas"]
    requires b == map["Var" := "pr", "Path" := "b/pr"]
    ensures CompleteSetStage({"Var", "Path"}, [a, b], [Constraint("Var", List(["tas", "pr"]))]) == Ok([a, b])
  {
    var spec := [Constraint("Var", List(["tas", "pr"]))];
    assert VarIndex(spec) == Some(0);
    assert OtherKeys(spec) == [];
  }

  lemma ExamplePass(a: Row, b: Row)
    requires a == map["Var" := "tas", "Path" := "a/tas"]
    requires b == map["Var" := "pr", "Path" := "b/pr"]
    ensures CompletePass([a, b], ["tas", "pr"]) == []
  {
    var rows := [a, b];
    var vals := ["tas", "pr"];
    SplitGroupsTable(a, b);
    DropNothing(rows, {});
    assert Imbalance(rows, "tas", "tas") == {};
    assert PassFrom(rows, vals, 0) == PassFrom(rows, vals, 1);
    assert Imbalance(rows, "tas", "pr") == {"a", "b"};
    assert DropGroups(rows, {"a", "b"}) == [] by {
      assert DropGroups(rows[1..], {"a", "b"}) == [];
    }
  }

  /** As written, asking for `Var=['tas','pr']` alone with a complete
      variable set keeps a group that offers only 'tas' next to one that
      offers only 'pr'; the corrected stage drops both. */
  lemma VarOnlyKeepsIncompleteGroup()
    ensures var a := map["Var" := "tas", "Path" := "a/tas"];
      var b := map["Var" := "pr", "Path" := "b/pr"];
      var spec := [Constraint("Var", List(["tas", "pr"]))];
      var t := Table({"Var", "Path"}, [a, b]);
      && FilterResult(t, spec, true) == Ok(t)
      && Group(a) == "a" && Group(a) !in Groups(t.rows, "pr")
      && CompleteSetStageIntended(t.columns, t.rows, spec) == Ok([])
  {
    var a := map["Var" := "tas", "Path" := "a/tas"];
    var b := map["Var" := "pr", "Path" := "b/pr"];
    var spec := [Constraint("Var", List(["tas", "pr"]))];
    var t := Table({"Var", "Path"}, [a, b]);
    SplitGroupsTable(a, b);
    ExampleSelect(a, b);
    ExampleStage(a, b);
    ExamplePass(a, b);
    assert OtherKeys(spec) == [];
    assert VarIndex(spec) == Some(0);
  }

  lemma RefilterTable(r1: Row, r2: Row)
    requires r1 == map["Model" := "A", "Var" := "tas"]
    requires r2 == map["Model" := "B", "Var" := "pr"]
    ensures ColumnValues([r1, r2], "Model") == {"A", "B"}
    ensures ColumnValues([r1, r2], "Var") == {"tas", "pr"}
    ensures ColumnValues([r1], "Model") == {"A"}
  {
    assert r1["Model"] == "A" && r1["Var"] == "tas";
    assert r2["Model"] == "B" && r2["Var"] == "pr";
    assert r1 in [r1, r2] && r2 in [r1, r2] && r1 in [r1];
    assert forall r :: r in [r1, r2] ==> r == r1 || r == r2;
    assert forall r :: r in [r1] ==> r == r1;
  }

  /** Filtering twice is not always possible: with `Model=['A','B']` and
      `Var='tas'`, the first call keeps only model A's row, and the second
      call then raises because 'B' is no longer in the `Model` column. */
  lemma RefilterCanFail()
    ensures var r1 := map["Model" := "A", "Var" := "tas"];
      var r2 := map["Model" := "B", "Var" := "pr"];
      var spec := [Constraint("Model", List(["A", "B"])), Constraint("Var", Scalar("tas"))];
      var t := Table({"Model", "Var"}, [r1, r2]);
      && FilterResult(t, spec, false) == Ok(Table(t.columns, [r1]))
      && FilterResult(Table(t.columns, [r1]), spec, false) == Err(UnknownValue("Model", "B"))
  {
    var r1 := map["Model" := "A", "Var" := "tas"];
    var r2 := map["Model" := "B", "Var" := "pr"];
    var spec := [Constraint("Model", List(["A", "B"])), Constraint("Var", Scalar("tas"))];
    var cols := {"Model", "Var"};
    RefilterTable(r1, r2);
    assert Keep([r1, r2], "Model", ["A", "B"]) == [r1, r2] by {
      assert [r1, r2][1..] == [r2];
      assert Keep([r2], "Model", ["A", "B"]) == [r2];
    }
    assert Keep([r1, r2], "Var", ["tas"]) == [r1] by {
      assert [r1, r2][1..] == [r2];
      assert Keep([r2], "Var", ["tas"]) == [];
    }
    assert SelectFrom(cols, [r1], spec, 2) == Selection(Ok([r1]), 2);
    assert SelectFrom(cols, [r1, r2], spec, 1) == Selection(Ok([r1]), 2);
    assert SelectFrom(cols, [r1, r2], spec, 0) == Selection(Ok([r1]), 2);
    assert FirstAbsent(["A", "B"], {"A"}) == Some("B");
    assert SelectFrom(cols, [r1], spec, 0) == Selection(Err(UnknownValue("Model", "B")), 1);
  }
}

=== FILE: fixed_field.dfy ===
/** Choosing the experiment a fixed field (orography, land fraction) is read
    from: `get_fx`, `get_orog`, `get_laf` (cmip5.py:413-446). The catalogue
    query is a parameter: `experimentsOf(model, var)` is the `Experiment`
    column of the catalogue filtered by model, frequency 'fx' and variable. */
module FixedField {
  import opened Results

  /** Experiments to read fixed fields from, in order of preference. */
  const Whitelist: seq<string> := ["historical", "piControl", "amip", "rcp45", "decadal1980"]

  /** HadGEM2-AO shares HadGEM2-CC's fixed fields, whose files exist. */
  function FxModel(model: string): string
  {
    if model == "HadGEM2-AO" then "HadGEM2-CC" else model
  }

  /** The catalogue query whose first cube `get_fx` returns. */
  datatype FxQuery = FxQuery(model: string, frequency: string, variable: string, experiment: string)

  datatype FxError =
    | NoFxFiles(model: string, variable: string)   // no experiment at all
    | WhitelistExhausted(variable: string)         // none of the whitelisted experiments

  /** Index of the first entry of `prefs` present in `exps`. */
  function FirstPresent(prefs: seq<string>, exps: seq<string>): (r: Option<nat>)
    ensures r.Some? ==> r.value < |prefs| && prefs[r.value] in exps
    ensures r.Some? ==> forall j :: 0 <= j < r.value ==> prefs[j] !in exps
    ensures r.None? ==> forall j :: 0 <= j < |prefs| ==> prefs[j] !in exps
    decreases |prefs|
  {
    if |prefs| == 0 then None
    else if prefs[0] in exps then Some(0)
    else match FirstPresent(prefs[1..], exps)
      case None => None
      case Some(i) => Some(i + 1)
  }

  /** `q` asks for variable `variable` of model `m` at frequency 'fx', from
      the first whitelisted experiment among `exps`. */
  predicate Chosen(q: FxQuery, m: string, variable: string, exps: seq<string>)
  {
    && q.model == m && q.frequency == "fx" && q.variable == variable
    && exists i :: 0 <= i < |Whitelist| && q.experiment == Whitelist[i]
         && q.experiment in exps
         && forall j :: 0 <= j < i ==> Whitelist[j] !in exps
  }

  /** What `get_fx` promises for model alias `m`, variable `variable` and
      available experiments `exps`: which error is raised when, and the
      chosen query otherwise. */
  predicate FxOutcome(r: Result<FxQuery, FxError>, m: string, variable: string, exps: seq<string>)
  {
    && (r == Err(NoFxFiles(m, variable)) <==> |exps| == 0)
    && (r == Err(WhitelistExhausted(variable)) <==>
          |exps| > 0 && forall j :: 0 <= j < |Whitelist| ==> Whitelist[j] !in exps)
    && (r.Ok? <==> |exps| > 0 && exists j :: 0 <= j < |Whitelist| && Whitelist[j] in exps)
    && (r.Ok? ==> Chosen(r.value, m, variable, exps))
  }

  /** `FxOutcome` leaves no freedom: at most one result satisfies it. */
  lemma FxOutcomeUnique(r1: Result<FxQuery, FxError>, r2: Result<FxQuery, FxError>,
                        m: string, variable: string, exps: seq<string>)
    requires FxOutcome(r1, m, variable, exps) && FxOutcome(r2, m, variable, exps)
    ensures r1 == r2
  {
    if r1.Ok? && r2.Ok? {
      var i1 :| 0 <= i1 < |Whitelist| && r1.value.experiment == Whitelist[i1]
                && Whitelist[i1] in exps && forall j :: 0 <= j < i1 ==> Whitelist[j] !in exps;
      var i2 :| 0 <= i2 < |Whitelist| && r2.value.experiment == Whitelist[i2]
                && Whitelist[i2] in exps && forall j :: 0 <= j < i2 ==> Whitelist[j] !in exps;
      assert i1 == i2;
    }
  }

  /** `get_fx(model, Var)`: the model is aliased first; an empty experiment
      list fails, otherwise the first whitelisted experiment present is
      chosen, and it fails when there is none. */
  function GetFx(model: string, variable: string, experimentsOf: (string, string) -> seq<string>)
    : (r: Result<FxQuery, FxError>)
    ensures var m := FxModel(model);
      var exps := experimentsOf(m, variable);
      && (r == Err(NoFxFiles(m, variable)) <==> |exps| == 0)
      && (r == Err(WhitelistExhausted(variable)) <==>
            |exps| > 0 && forall j :: 0 <= j < |Whitelist| ==> Whitelist[j] !in exps)
      && (r.Ok? ==> r.value.model == m && r.value.frequency == "fx" && r.value.variable == variable)
      && (r.Ok? ==> exists i :: 0 <= i < |Whitelist| && r.value.experiment == Whitelist[i]
                      && r.value.experiment in exps
                      && forall j :: 0 <= j < i ==> Whitelist[j] !in exps)
    ensures var exps := experimentsOf(FxModel(model), variable);
      r.Ok? <==> |exps| > 0 && exists j :: 0 <= j < |Whitelist| && Whitelist[j] in exps
    ensures model == "HadGEM2-AO" && r.Ok? ==> r.value.model == "HadGEM2-CC"
    ensures FxOutcome(r, FxModel(model), variable, experimentsOf(FxModel(model), variable))
  {
    var m := FxModel(model);
    var exps := experimentsOf(m, variable);
    if |exps| == 0 then Err(NoFxFiles(m, variable))
    else match FirstPresent(Whitelist, exps)
      case None => Err(WhitelistExhausted(variable))
      case Some(i) => Ok(FxQuery(m, "fx", variable, Whitelist[i]))
  }

  /** `get_orog(model)`. */
  function GetOrog(model: string, experimentsOf: (string, string) -> seq<string>): (r: Result<FxQuery, FxError>)
    ensures r.Ok? ==> r.value.variable == "orog" && r.value.model == FxModel(model)
    ensures r.Err? <==> GetFx(model, "orog", experimentsOf).Err?
    ensures FxOutcome(r, FxModel(model), "orog", experimentsOf(FxModel(model), "orog"))
  {
    GetFx(model, "orog", experimentsOf)
  }

  /** `get_laf(model)`. */
  function GetLaf(model: string, experimentsOf: (string, string) -> seq<string>): (r: Result<FxQuery, FxError>)
    ensures r.Ok? ==> r.value.variable == "sftlf" && r.value.model == FxModel(model)
    ensures r.Err? <==> GetFx(model, "sftlf", experimentsOf).Err?
    ensures FxOutcome(r, FxModel(model), "sftlf", experimentsOf(FxModel(model), "sftlf"))
  {
    GetFx(model, "sftlf", experimentsOf)
  }
}

=== FILE: loading.dfy ===
/** The pure parts of `get_cubes`, `get_cube` and `callback`
    (cmip5.py:221-407): which files of a row's directory are read, which
    labels a file name yields, and the one-row check. */
module Loading {
  import opened Results
  import opened Sequences
  import opened Text
  import opened CatalogueFilter

  /** Lines 290-293: names that do not start with '.', in listing order. */
  function DropHidden(names: seq<string>): (r: seq<string>)
    ensures forall n :: n in r <==> n in names && !StartsWith(n, ".")
    ensures Subseq(r, names)
    decreases |names|
  {
    if |names| == 0 then []
    else
      assert forall n :: n in names <==> n == names[0] || n in names[1..];
      var rest := DropHidden(names[1..]);
      if StartsWith(names[0], ".") then rest
      else
        assert ([names[0]] + rest)[1..] == rest;
        [names[0]] + rest
  }

  /** A file the loop at lines 299-308 marks for removal: its name lacks the
      run id, or it ends in '.nc4'. */
  predicate Misplaced(name: string, runId: string)
  {
    !Contains(name, runId) || EndsWith(name, ".nc4")
  }

  /** `del_netcdfs`: the marked names, in listing order. */
  function Marked(names: seq<string>, runId: string): (r: seq<string>)
    ensures forall n :: n in r <==> n in names && Misplaced(n, runId)
    decreases |names|
  {
    if |names| == 0 then []
    else
      assert forall n :: n in names <==> n == names[0] || n in names[1..];
      (if Misplaced(names[0], runId) then [names[0]] else []) + Marked(names[1..], runId)
  }

  /** The unmarked names, in listing order. */
  function Unmarked(names: seq<string>, runId: string): (r: seq<string>)
    ensures forall n :: n in r <==> n in names && !Misplaced(n, runId)
    decreases |names|
  {
    if |names| == 0 then []
    else
      assert forall n :: n in names <==> n == names[0] || n in names[1..];
      (if Misplaced(names[0], runId) then [] else [names[0]]) + Unmarked(names[1..], runId)
  }

  /** `list.remove(k)`: deletes the first occurrence of `k`. */
  function RemoveFirst(names: seq<string>, k: string): (r: seq<string>)
    ensures multiset(r) == multiset(names) - multiset{k}
    decreases |names|
  {
    if |names| == 0 then []
    else
      assert names == [names[0]] + names[1..];
      if names[0] == k then names[1..]
      else [names[0]] + RemoveFirst(names[1..], k)
  }

  /** Lines 311-312: `for k in del_netcdfs: if k in netcdfs: netcdfs.remove(k)`. */
  function RemoveEach(names: seq<string>, dels: seq<string>): (r: seq<string>)
    ensures multiset(r) == multiset(names) - multiset(dels)
    decreases |dels|
  {
    if |dels| == 0 then names
    else
      assert dels == [dels[0]] + dels[1..];
      RemoveEach(if dels[0] in names then RemoveFirst(names, dels[0]) else names, dels[1..])
  }

  /** The files of a row's directory that `get_cubes` loads, computed as the
      source does (lines 289-312). */
  function SelectNetcdfs(listing: seq<string>, runId: string): (r: seq<string>)
    ensures forall n :: n in r <==> n in listing && Wanted(n, runId)
  {
    var visible := DropHidden(listing);
    RemoveEachMarked(visible, runId);
    UnmarkedVisible(listing, runId);
    RemoveEach(visible, Marked(visible, runId))
  }

  /** A file is loaded when it is not hidden, names the run id and does not
      end in '.nc4'. */
  predicate Wanted(name: string, runId: string)
  {
    !StartsWith(name, ".") && Contains(name, runId) && !EndsWith(name, ".nc4")
  }

  /** Reference definition: the wanted names of a listing, in listing order. */
  function WantedNames(listing: seq<string>, runId: string): (r: seq<string>)
    ensures forall n :: n in r <==> n in listing && Wanted(n, runId)
    decreases |listing|
  {
    if |listing| == 0 then []
    else
      assert forall n :: n in listing <==> n == listing[0] || n in listing[1..];
      (if Wanted(listing[0], runId) then [listing[0]] else []) + WantedNames(listing[1..], runId)
  }

  /** Removing the first marked name by value removes exactly that
      occurrence: an earlier equal name would have been marked first. */
  lemma {:induction false} RemoveFirstMarked(names: seq<string>, runId: string)
    requires |Marked(names, runId)| > 0
    ensures var k := Marked(names, runId)[0];
      && k in names
      && Marked(RemoveFirst(names, k), runId) == Marked(names, runId)[1..]
      && Unmarked(RemoveFirst(names, k), runId) == Unmarked(names, runId)
    decreases |names|
  {
    var k := Marked(names, runId)[0];
    if names[0] != k {
      assert !Misplaced(names[0], runId);
      assert Marked(names, runId) == Marked(names[1..], runId);
      RemoveFirstMarked(names[1..], runId);
      var rest := RemoveFirst(names[1..], k);
      assert RemoveFirst(names, k) == [names[0]] + rest;
      assert ([names[0]] + rest)[1..] == rest;
    } else {
      assert Marked(names, runId) == [k] + Marked(names[1..], runId);
    }
  }

  lemma {:induction false} RemoveEachMarked(names: seq<string>, runId: string)
    ensures RemoveEach(names, Marked(names, runId)) == Unmarked(names, runId)
    decreases |Marked(names, runId)|
  {
    var dels := Marked(names, runId);
    if |dels| == 0 {
      NothingMarked(names, runId);
    } else {
      RemoveFirstMarked(names, runId);
      RemoveEachMarked(RemoveFirst(names, dels[0]), runId);
    }
  }

  lemma {:induction false} NothingMarked(names: seq<string>, runId: string)
    requires |Marked(names, runId)| == 0
    ensures Unmarked(names, runId) == names
    decreases |names|
  {
    if |names| > 0 {
      NothingMarked(names[1..], runId);
    }
  }

  lemma {:induction false} UnmarkedVisible(listing: seq<string>, runId: string)
    ensures Unmarked(DropHidden(listing), runId) == WantedNames(listing, runId)
    decreases |listing|
  {
    if |listing| > 0 {
      var x := listing[0];
      UnmarkedVisible(listing[1..], runId);
      var d := DropHidden(listing);
      if !StartsWith(x, ".") {
        assert d == [x] + DropHidden(listing[1..]);
        assert d[1..] == DropHidden(listing[1..]);
        assert Wanted(x, runId) <==> !Misplaced(x, runId);
      } else {
        assert d == DropHidden(listing[1..]);
        assert !Wanted(x, runId);
      }
    }
  }

  /** The files loaded are exactly the wanted names of the listing, in
      listing order (each removal by value deletes the marked occurrence
      and no other). */
  lemma SelectNetcdfsIsWanted(listing: seq<string>, runId: string)
    ensures SelectNetcdfs(listing, runId) == WantedNames(listing, runId)
  {
    RemoveEachMarked(DropHidden(listing), runId);
    UnmarkedVisible(listing, runId);
  }

  lemma {:induction false} WantedNamesIdempotent(listing: seq<string>, runId: string)
    ensures WantedNames(WantedNames(listing, runId), runId) == WantedNames(listing, runId)
    decreases |listing|
  {
    if |listing| > 0 {
      WantedNamesIdempotent(listing[1..], runId);
      var w := WantedNames(listing, runId);
      if Wanted(listing[0], runId) {
        assert w == [listing[0]] + WantedNames(listing[1..], runId);
        assert w[1..] == WantedNames(listing[1..], runId);
      } else {
        assert w == WantedNames(listing[1..], runId);
      }
    }
  }

  /** Selecting again from the selected names changes nothing. */
  lemma SelectNetcdfsIdempotent(listing: seq<string>, runId: string)
    ensures SelectNetcdfs(SelectNetcdfs(listing, runId), runId) == SelectNetcdfs(listing, runId)
  {
    SelectNetcdfsIsWanted(listing, runId);
    SelectNetcdfsIsWanted(SelectNetcdfs(listing, runId), runId);
    WantedNamesIdempotent(listing, runId);
  }

  /** The auxiliary labels `callback` attaches to a loaded cube. */
  datatype Labels = Labels(model: string, experiment: string, runId: string)

  /** Lines 227-242: the third, fourth and fifth '_'-separated fields of the
      path iris hands to the callback (the directory, '/', then the file
      name, as built at lines 318 and 326); an IndexError (None) when there
      are fewer than five. An '_' in a directory name shifts the fields. */
  function FilenameLabels(path: string): (r: Option<Labels>)
    ensures r.Some? <==> |Split(path, '_')| >= 5
  {
    var parts := Split(path, '_');
    if |parts| < 5 then None else Some(Labels(parts[2], parts[3], parts[4]))
  }

  /** For a string `var_table_model_experiment_run[_...]` the labels are the
      model, experiment and run fields. */
  lemma FilenameLabelsOfFields(fields: seq<string>)
    requires |fields| >= 5
    requires SeparatorFree(fields, '_')
    ensures FilenameLabels(Join(fields, '_')) == Some(Labels(fields[2], fields[3], fields[4]))
  {
    SplitJoin(fields, '_');
  }

  /** When the directory has no '_', the labels of `dir + '/' + file` are
      those of the CMIP5 file name `var_table_model_experiment_run[_...]`. */
  lemma PathLabels(dir: string, fields: seq<string>)
    requires '_' !in dir
    requires |fields| >= 5
    requires SeparatorFree(fields, '_')
    ensures FilenameLabels(dir + "/" + Join(fields, '_')) == Some(Labels(fields[2], fields[3], fields[4]))
  {
    var ps := PrefixFirst(dir, fields);
    FilenameLabelsOfFields(ps);
  }

  /** The '_'-fields of `dir + '/' + Join(fields, '_')`: the first field
      carries the directory. */
  function PrefixFirst(dir: string, fields: seq<string>): (ps: seq<string>)
    requires '_' !in dir
    requires |fields| >= 1
    requires SeparatorFree(fields, '_')
    ensures |ps| == |fields| && ps[1..] == fields[1..]
    ensures SeparatorFree(ps, '_')
    ensures Join(ps, '_') == dir + "/" + Join(fields, '_')
  {
    var head := dir + "/" + fields[0];
    var ps := [head] + fields[1..];
    assert ps[1..] == fields[1..];
    assert '_' !in head by {
      assert forall ch :: ch in head ==> ch in dir || ch == '/' || ch in fields[0];
    }
    assert SeparatorFree(ps, '_') by {
      forall i | 0 <= i < |ps| ensures '_' !in ps[i] {
        if i > 0 {
          assert ps[i] == fields[i];
        }
      }
    }
    assert Join(ps, '_') == dir + "/" + Join(fields, '_') by {
      if |fields| > 1 {
        var tail := Join(fields[1..], '_');
        assert Join(fields, '_') == fields[0] + "_" + tail;
        assert Join(ps, '_') == head + "_" + tail;
      }
    }
    ps
  }

  /** Why `get_cube` refuses a table. */
  datatype CubeError = NoCubes | SeveralCubes

  /** Lines 396-407: exactly one row is required; the cube returned is the
      one loaded for that row. */
  function GetCube(rows: seq<Row>): (r: Result<Row, CubeError>)
    ensures r.Ok? <==> |rows| == 1
    ensures r.Ok? ==> r.value == rows[0]
    ensures r == Err(NoCubes) <==> |rows| == 0
    ensures r == Err(SeveralCubes) <==> |rows| > 1
  {
    if |rows| == 1 then Ok(rows[0])
    else if |rows| > 1 then Err(SeveralCubes)
    else Err(NoCubes)
  }
}

=== FILE: ordering.dfy ===
/** Python's ordering of strings (code point by code point, a proper prefix
    first) and the `sorted(set(xs))` normal form built on it. */
module Ordering {
  import opened Sequences

  /** `a < b` on Python strings. */
  predicate Less(a: string, b: string)
    decreases |a|
  {
    if |a| == 0 then |b| > 0
    else |b| > 0 && (a[0] < b[0] || (a[0] == b[0] && Less(a[1..], b[1..])))
  }

  lemma {:induction false} LessIrreflexive(a: string)
    ensures !Less(a, a)
    decreases |a|
  {
    if |a| > 0 {
      LessIrreflexive(a[1..]);
    }
  }

  lemma {:induction false} LessTransitive(a: string, b: string, c: string)
    requires Less(a, b) && Less(b, c)
    ensures Less(a, c)
    decreases |a|
  {
    if |a| > 0 && a[0] == b[0] && b[0] == c[0] {
      LessTransitive(a[1..], b[1..], c[1..]);
    }
  }

  lemma {:induction false} LessTotal(a: string, b: string)
    requires a != b
    ensures Less(a, b) || Less(b, a)
    decreases |a|
  {
    if |a| > 0 && |b| > 0 && a[0] == b[0] {
      assert a == [a[0]] + a[1..] && b == [b[0]] + b[1..];
      LessTotal(a[1..], b[1..]);
    }
  }

  /** Strictly increasing, hence also free of duplicates. */
  predicate StrictlySorted(s: seq<string>)
  {
    forall i, j :: 0 <= i < j < |s| ==> Less(s[i], s[j])
  }

  /** Adds `x` to a strictly sorted list unless it is already there. */
  function Insert(x: string, s: seq<string>): (r: seq<string>)
    requires StrictlySorted(s)
    ensures StrictlySorted(r)
    ensures Elems(r) == Elems(s) + {x}
    decreases |s|
  {
    if |s| == 0 then [x]
    else if x == s[0] then s
    else if Less(x, s[0]) then
      assert forall j :: 0 < j < |s| ==> Less(x, s[j]) by {
        forall j | 0 < j < |s| ensures Less(x, s[j]) {
          LessTransitive(x, s[0], s[j]);
        }
      }
      [x] + s
    else
      LessTotal(x, s[0]);
      var t := Insert(x, s[1..]);
      assert Elems(s) == {s[0]} + Elems(s[1..]) by {
        assert s == [s[0]] + s[1..];
      }
      assert forall y :: y in t ==> Less(s[0], y) by {
        forall y | y in t ensures Less(s[0], y) {
          assert y in Elems(t);
        }
      }
      assert Elems([s[0]] + t) == {s[0]} + Elems(t);
      [s[0]] + t
  }

  /** `sorted(set(xs))`: the distinct elements of `xs` in increasing order. */
  function SortedSet(xs: seq<string>): (r: seq<string>)
    ensures StrictlySorted(r)
    ensures Elems(r) == Elems(xs)
    decreases |xs|
  {
    if |xs| == 0 then []
    else
      var r := Insert(xs[|xs| - 1], SortedSet(xs[..|xs| - 1]));
      assert xs == xs[..|xs| - 1] + [xs[|xs| - 1]];
      r
  }

  /** A strictly sorted list is determined by its elements. */
  lemma {:induction false} StrictlySortedUnique(a: seq<string>, b: seq<string>)
    requires StrictlySorted(a) && StrictlySorted(b)
    requires Elems(a) == Elems(b)
    ensures a == b
    decreases |a|
  {
    if |a| > 0 {
      assert a[0] in Elems(b);
      assert |b| > 0;
      assert b[0] in Elems(a);
      if a[0] != b[0] {
        var i :| 0 <= i < |b| && b[i] == a[0];
        var j :| 0 <= j < |a| && a[j] == b[0];
        assert i > 0 && j > 0;
        LessTransitive(a[0], b[0], a[0]);
        LessIrreflexive(a[0]);
      }
      assert Elems(a[1..]) == Elems(b[1..]) by {
        assert a == [a[0]] + a[1..] && b == [b[0]] + b[1..];
        assert a[0] !in a[1..] by {
          forall k | 0 <= k < |a[1..]| ensures a[1..][k] != a[0] {
            assert Less(a[0], a[k + 1]);
            LessIrreflexive(a[0]);
          }
        }
        assert b[0] !in b[1..] by {
          forall k | 0 <= k < |b[1..]| ensures b[1..][k] != b[0] {
            assert Less(b[0], b[k + 1]);
            LessIrreflexive(b[0]);
          }
        }
        assert Elems(a) == {a[0]} + Elems(a[1..]);
        assert Elems(b) == {b[0]} + Elems(b[1..]);
        assert Elems(a[1..]) == Elems(a) - {a[0]};
        assert Elems(b[1..]) == Elems(b) - {b[0]};
      }
      StrictlySortedUnique(a[1..], b[1..]);
    } else {
      ElemsEmpty(b);
    }
  }

  /** Two lists have the same `sorted(set(..))` exactly when they hold the
      same elements, whatever their order and duplicates. */
  lemma SortedSetEqualIff(xs: seq<string>, ys: seq<string>)
    ensures SortedSet(xs) == SortedSet(ys) <==> Elems(xs) == Elems(ys)
  {
    if Elems(xs) == Elems(ys) {
      StrictlySortedUnique(SortedSet(xs), SortedSet(ys));
    }
  }
}

=== FILE: results.dfy ===
/** Failure-carrying wrappers used in place of the exceptions the catalogue
    code raises. */
module Results {

  datatype Option<+T> = None | Some(value: T)

  /** Either a value or the error the source would have raised. */
  datatype Result<+T, +E> = Ok(value: T) | Err(error: E)
}

=== FILE: sequences.dfy ===
/** Generic facts about sequences: order-preserving sub-sequences and
    duplicate removal. */
module Sequences {

  /** The elements of `s` as a set. */
  function Elems<T>(s: seq<T>): set<T>
  {
    set x | x in s
  }

  lemma ElemsEmpty<T>(s: seq<T>)
    ensures Elems(s) == {} <==> |s| == 0
  {
    if |s| > 0 {
      assert s[0] in Elems(s);
    }
  }

  /** `a` is obtained from `b` by deleting elements, keeping the order of the rest. */
  predicate Subseq<T(==)>(a: seq<T>, b: seq<T>)
    decreases |b|
  {
    if |b| == 0 then |a| == 0
    else (|a| > 0 && a[0] == b[0] && Subseq(a[1..], b[1..])) || Subseq(a, b[1..])
  }

  lemma {:induction false} SubseqReflexive<T>(a: seq<T>)
    ensures Subseq(a, a)
    decreases |a|
  {
    if |a| > 0 {
      SubseqReflexive(a[1..]);
    }
  }

  lemma {:induction false} SubseqMembers<T>(a: seq<T>, b: seq<T>)
    requires Subseq(a, b)
    ensures forall x :: x in a ==> x in b
    decreases |b|
  {
    if |b| > 0 {
      if |a| > 0 && a[0] == b[0] && Subseq(a[1..], b[1..]) {
        SubseqMembers(a[1..], b[1..]);
        assert forall x :: x in a ==> x == a[0] || x in a[1..];
      } else {
        SubseqMembers(a, b[1..]);
      }
    }
  }

  lemma {:induction false} SubseqTransitive<T>(a: seq<T>, b: seq<T>, c: seq<T>)
    requires Subseq(a, b) && Subseq(b, c)
    ensures Subseq(a, c)
    decreases |c|
  {
    if |c| > 0 {
      if |b| > 0 && b[0] == c[0] && Subseq(b[1..], c[1..]) {
        if |a| > 0 && a[0] == b[0] && Subseq(a[1..], b[1..]) {
          SubseqTransitive(a[1..], b[1..], c[1..]);
        } else {
          SubseqTransitive(a, b[1..], c[1..]);
        }
      } else {
        SubseqTransitive(a, b, c[1..]);
      }
    }
  }

  /** No element occurs twice. */
  predicate NoDup<T(==)>(s: seq<T>)
  {
    forall i, j :: 0 <= i < j < |s| ==> s[i] != s[j]
  }

  /** `s` with every repeated element removed; the first occurrence is kept. */
  function Dedup<T(==)>(s: seq<T>): (r: seq<T>)
    ensures Elems(r) == Elems(s)
    ensures NoDup(r)
    ensures Subseq(r, s)
    decreases |s|
  {
    if |s| == 0 then []
    else if s[|s| - 1] in s[..|s| - 1] then
      var init, last := s[..|s| - 1], s[|s| - 1];
      var r := Dedup(init);
      SubseqSnoc(r, init, last);
      assert init + [last] == s;
      assert Elems(s) == Elems(init) + {last};
      r
    else
      var init, last := s[..|s| - 1], s[|s| - 1];
      var r := Dedup(init);
      SubseqAppend(r, init, last);
      assert init + [last] == s;
      assert Elems(s) == Elems(init) + {last};
      assert last !in r by {
        assert last !in Elems(init);
      }
      assert Elems(r + [last]) == Elems(r) + {last};
      r + [last]
  }

  lemma {:induction false} SubseqSnoc<T>(a: seq<T>, b: seq<T>, x: T)
    requires Subseq(a, b)
    ensures Subseq(a, b + [x])
    decreases |b|
  {
    if |b| == 0 {
      assert |a| == 0;
      assert Subseq(a, (b + [x])[1..]);
    } else {
      assert (b + [x])[1..] == b[1..] + [x];
      if |a| > 0 && a[0] == b[0] && Subseq(a[1..], b[1..]) {
        SubseqSnoc(a[1..], b[1..], x);
      } else {
        SubseqSnoc(a, b[1..], x);
      }
    }
  }

  lemma {:induction false} SubseqAppend<T>(a: seq<T>, b: seq<T>, x: T)
    requires Subseq(a, b)
    ensures Subseq(a + [x], b + [x])
    decreases |b|
  {
    if |b| == 0 {
      assert |a| == 0;
      assert a + [x] == [x] == b + [x];
      SubseqReflexive([x]);
    } else {
      assert (b + [x])[1..] == b[1..] + [x];
      if |a| > 0 && a[0] == b[0] && Subseq(a[1..], b[1..]) {
        SubseqAppend(a[1..], b[1..], x);
        assert (a + [x])[1..] == a[1..] + [x];
      } else {
        SubseqAppend(a, b[1..], x);
      }
    }
  }
}

=== FILE: text.dfy ===
/** String operations the catalogue code borrows from Python's `str`,
    `re.split` and `os.path`, written out over `seq<char>`. */
module Text {

  /** `str.startswith`. */
  predicate StartsWith(s: string, prefix: string)
  {
    |prefix| <= |s| && s[..|prefix|] == prefix
  }

  /** `str.endswith`. */
  predicate EndsWith(s: string, suffix: string)
  {
    |suffix| <= |s| && s[|s| - |suffix|..] == suffix
  }

  /** Python's `sub in s`: `sub` occurs in `s` at some offset (the empty
      string occurs in every string). */
  predicate Contains(s: string, sub: string)
    decreases |s|
  {
    StartsWith(s, sub) || (|s| > 0 && Contains(s[1..], sub))
  }

  /** `s.split(c)` (and `re.split(c, s)` for a one-character pattern): the
      pieces between occurrences of `c`; there is always at least one. */
  function Split(s: string, c: char): (parts: seq<string>)
    ensures |parts| >= 1
    ensures forall i :: 0 <= i < |parts| ==> c !in parts[i]
    decreases |s|
  {
    if |s| == 0 then [""]
    else if s[0] == c then [""] + Split(s[1..], c)
    else
      var rest := Split(s[1..], c);
      [[s[0]] + rest[0]] + rest[1..]
  }

  /** `c.join(parts)`. */
  function Join(parts: seq<string>, c: char): string
    requires |parts| >= 1
    decreases |parts|
  {
    if |parts| == 1 then parts[0] else parts[0] + [c] + Join(parts[1..], c)
  }

  predicate SeparatorFree(parts: seq<string>, c: char)
  {
    forall i :: 0 <= i < |parts| ==> c !in parts[i]
  }

  lemma {:induction false} JoinCons(x: char, parts: seq<string>, c: char)
    requires |parts| >= 1
    ensures Join([[x] + parts[0]] + parts[1..], c) == [x] + Join(parts, c)
  {
    var ps := [[x] + parts[0]] + parts[1..];
    assert ps[1..] == parts[1..];
  }

  lemma {:induction false} JoinSnoc(parts: seq<string>, x: string, c: char)
    requires |parts| >= 1
    ensures Join(parts + [x], c) == Join(parts, c) + [c] + x
    decreases |parts|
  {
    var ps := parts + [x];
    if |parts| == 1 {
      assert ps[1..] == [x];
    } else {
      assert ps[1..] == parts[1..] + [x];
      JoinSnoc(parts[1..], x, c);
    }
  }

  /** Joining the pieces of a split gives back the original string. */
  lemma {:induction false} JoinSplit(s: string, c: char)
    ensures Join(Split(s, c), c) == s
    decreases |s|
  {
    if |s| > 0 {
      JoinSplit(s[1..], c);
      if s[0] == c {
        assert ([""] + Split(s[1..], c))[1..] == Split(s[1..], c);
        assert s == [c] + s[1..];
      } else {
        JoinCons(s[0], Split(s[1..], c), c);
        assert s == [s[0]] + s[1..];
      }
    }
  }

  lemma {:induction false} SplitFree(p: string, c: char)
    requires c !in p
    ensures Split(p, c) == [p]
    decreases |p|
  {
    if |p| > 0 {
      SplitFree(p[1..], c);
      assert [p[0]] + p[1..] == p;
    }
  }

  lemma {:induction false} SplitAfterPiece(p: string, rest: string, c: char)
    requires c !in p
    ensures Split(p + [c] + rest, c) == [p] + Split(rest, c)
    decreases |p|
  {
    var s := p + [c] + rest;
    if |p| == 0 {
      assert s[1..] == rest;
    } else {
      assert s[1..] == p[1..] + [c] + rest;
      SplitAfterPiece(p[1..], rest, c);
      assert [p[0]] + p[1..] == p;
    }
  }

  /** Splitting a join of separator-free pieces gives back the pieces. */
  lemma {:induction false} SplitJoin(parts: seq<string>, c: char)
    requires |parts| >= 1
    requires SeparatorFree(parts, c)
    ensures Split(Join(parts, c), c) == parts
    decreases |parts|
  {
    if |parts| == 1 {
      SplitFree(parts[0], c);
    } else {
      SplitJoin(parts[1..], c);
      SplitAfterPiece(parts[0], Join(parts[1..], c), c);
      assert [parts[0]] + parts[1..] == parts;
    }
  }

  /** Index just after the last '/' of `p`, or 0 when there is none
      (`p.rfind('/') + 1`). */
  function AfterLastSlash(p: string): (i: nat)
    ensures i <= |p|
    ensures i > 0 ==> p[i - 1] == '/'
    ensures '/' !in p[i..]
    decreases |p|
  {
    if |p| == 0 then 0
    else if p[|p| - 1] == '/' then |p|
    else
      var i := AfterLastSlash(p[..|p| - 1]);
      assert p[i..] == p[..|p| - 1][i..] + [p[|p| - 1]];
      i
  }

  predicate AllSlashes(s: string)
  {
    forall k :: 0 <= k < |s| ==> s[k] == '/'
  }

  /** `s.rstrip('/')`. */
  function StripSlashes(s: string): (r: string)
    ensures r <= s
    ensures |r| == 0 || r[|r| - 1] != '/'
    ensures forall k :: |r| <= k < |s| ==> s[k] == '/'
    decreases |s|
  {
    if |s| > 0 && s[|s| - 1] == '/' then StripSlashes(s[..|s| - 1]) else s
  }

  /** The head of POSIX `os.path.split(p)`: everything up to the last '/',
      with trailing slashes removed unless the head is made of slashes only. */
  function PathHead(p: string): (r: string)
    ensures r <= p
    ensures '/' !in p ==> r == ""
  {
    var head := p[..AfterLastSlash(p)];
    if |head| > 0 && !AllSlashes(head) then StripSlashes(head) else head
  }

  lemma {:induction false} AfterLastSlashOf(d: string, name: string)
    requires '/' !in name
    ensures AfterLastSlash(d + "/" + name) == |d| + 1
    decreases |name|
  {
    var p := d + "/" + name;
    if |name| > 0 {
      assert p[..|p| - 1] == d + "/" + name[..|name| - 1];
      AfterLastSlashOf(d, name[..|name| - 1]);
    } else {
      assert p[|p| - 1] == '/';
    }
  }

  /** For a path written as '/'-joined directory pieces followed by a last
      component, the head is exactly the joined directory pieces (when the
      last directory piece is not empty). */
  lemma {:induction false} PathHeadOfJoin(dirs: seq<string>, name: string)
    requires |dirs| >= 1
    requires SeparatorFree(dirs, '/') && '/' !in name
    requires |dirs[|dirs| - 1]| > 0
    ensures PathHead(Join(dirs + [name], '/')) == Join(dirs, '/')
  {
    var d := Join(dirs, '/');
    JoinSnoc(dirs, name, '/');
    AfterLastSlashOf(d, name);
    var p := d + "/" + name;
    var head := p[..|d| + 1];
    assert head == d + "/";
    JoinEndsWithLast(dirs, '/');
    assert |d| > 0 && d[|d| - 1] != '/';
    assert !AllSlashes(head) by {
      assert head[|d| - 1] != '/';
    }
    assert head[..|head| - 1] == d;
  }

  /** A join ends with its last piece. */
  lemma {:induction false} JoinEndsWithLast(parts: seq<string>, c: char)
    requires |parts| >= 1
    ensures |parts[|parts| - 1]| <= |Join(parts, c)|
    ensures Join(parts, c)[|Join(parts, c)| - |parts[|parts| - 1]|..] == parts[|parts| - 1]
    decreases |parts|
  {
    if |parts| > 1 {
      JoinEndsWithLast(parts[1..], c);
    }
  }
}

=== FILE: values.dfy ===
/** A value in a filter or query dictionary: the caller may give one string
    or a list of strings, and the catalogue code turns a lone string into a
    one-element list before using it (cmip5.py:85-88, 110-111, 185-186). */
module Values {
  datatype Value = Scalar(text: string) | List(items: seq<string>)

  /** The value as the list the code works with. */
  function AsList(v: Value): (r: seq<string>)
    ensures v.Scalar? ==> r == [v.text]
    ensures v.List? ==> r == v.items
  {
    match v
    case Scalar(s) => [s]
    case List(xs) => xs
  }

  /** The in-place coercion of a lone string to a one-element list. */
  function Coerce(v: Value): (r: Value)
    ensures r.List?
    ensures AsList(r) == AsList(v)
    ensures v.List? ==> r == v
  {
    List(AsList(v))
  }
}
